=== FILE: README.md ===
# foodgram application logic, modelled in Dafny

foodgram is a Django REST backend for sharing recipes. Users publish recipes
built from ingredients and tags. They can favourite recipes, put them in a
shopping cart and subscribe to authors. They can also download a shopping
list that merges the ingredients of every recipe in their cart.

This project models the application logic of that backend as pure functions
over immutable tables. Each table is a `seq` of records in insertion order.
Every operation returns a `Result`: either the new tables or the error the
code raises. The modules follow the program's structure:

- `Results` (`results.dfy`): `Option`, `Result`, and one `Error` value per
  distinct failure the code can raise.
- `Seqs` (`seqs.dfy`): order-preserving `Filter` (the ORM's `filter(...)`),
  which keeps every occurrence of a kept row, uniqueness predicates, and a
  key no current row has.
- `Text` (`text.dfy`): Python's `str.strip()` over Python's whitespace set,
  and `str(n)` for natural numbers.
- `Schema` (`schema.dfy`): the tables of `recipes/models.py` and
  `users/models.py`. `Wellformed` states the constraints every reachable
  state satisfies. The database enforces primary keys, `unique_follow`,
  `unique_favorite`, `unique_shopping_cart`, unique email and username, the
  20-character `varchar` width of the username, and foreign keys. Field
  validation adds non-blank email and username, and `cooking_time >= 1`
  (the column itself only refuses negative values). The module also models the `on_delete=CASCADE` deletes
  of a recipe and of a user.
- `ShoppingList` (`shopping_list.dfy`): `DownloadShoppingCart.get`.
  - `Aggregate` is a reference definition of the list. It is keyed by
    ingredient name; amounts are summed; the first unit seen is kept; names
    come in first-encounter order.
  - The view's two loops are modelled as methods whose invariants tie them
    to `Aggregate`.
- `Toggles` (`toggles.dfy`): adding and removing Favorite, ShoppingCart and
  Follow rows, plus the subscription listing.
- `Composition` (`composition.dfy`): `CreateRecipeSerializer`. This covers
  validation (the field-level checks in field order, then `validate`),
  create, update with replace semantics, and the view's destroy.
- `Presentation` (`presentation.dfy`): what the read serializers show.
  - The `is_favorited` and `is_in_shopping_cart` flags.
  - The two `is_subscribed` flags.
  - The subscription cards as the code builds them, each holding at most
    `RECIPES_LIMIT = 6` recipes in `(name, pub_date)` order, and the same
    cards with the corrected flag (see "## Findings").
- `Accounts` (`accounts.dfy`): `get_full_name` / `get_short_name`, and
  `AuthTokenSerializer.validate` with `authenticate` passed in as a
  function.

The configured database is PostgreSQL (`foodgram_project/settings.py:92`).
`ORDER BY name` compares names by the database's default collation,
which the settings do not fix. The model therefore takes the name order as
a parameter `le`, and requires only that it is a total order; the recipe
order, the sort and the cap are proved for every such order.
`Presentation.CodePointOrder` shows that code-point order, the "C"
collation, is one of them.

Two modelling choices differ from what one might expect:

- **Repeated ingredients are accepted.** `CreateRecipeSerializer` has no
  check for an ingredient listed twice:
  `Composition.DuplicateIngredientAccepted` shows that such a payload
  creates two rows.
- **Errors are coarser than HTTP.** A missing favourite or cart row on
  removal raises an unhandled `DoesNotExist` rather than a 404. The model
  reports both as `NotFound`.

## Model

| member | source | states |
|---|---|---|
| `Schema.DeleteRecipe` | backend/recipes/models.py:82-181 | deleting a recipe removes exactly its own row and the RecipeIngredient, ReceiptTag, Favorite and ShoppingCart rows that refer to it; users, ingredients, tags and follows are untouched, and every other recipe keeps each of its join rows as many times as it had it |
| `Schema.DeleteRecipeWellformed` | backend/recipes/models.py:132-193 | the recipe cascade keeps every key, uniqueness and foreign-key constraint, and the recipe id is gone afterwards |
| `Schema.DeleteUser` | backend/recipes/models.py:40-175 | deleting a user removes the user, their recipes and those recipes' join rows, their Follow rows in both roles, and Favorite and ShoppingCart rows that are theirs or point at their recipes, and nothing else; surviving recipes keep each join row as many times as they had it |
| `Schema.DeleteUserWellformed` | backend/recipes/models.py:40-175 | the user cascade leaves no dangling foreign key and keeps every uniqueness constraint |
| `Schema.AddUser` | backend/users/models.py:7-8 | a user row is inserted exactly when the email is non-blank and unused and the username is non-blank, at most 20 characters and unused; the new row gets an id no existing user has |
| `Schema.AddUserWellformed` | backend/users/models.py:7-8 | inserting a user keeps email and username unique across users |
| `Toggles.AddToList` | backend/recipes/serializers.py:256-307 | adding a favourite or cart pair fails for an unknown user or recipe and for a pair already present, and otherwise appends exactly that pair and changes nothing else |
| `Toggles.RemoveFromList` | backend/recipes/views.py:88-123 | removal fails when the recipe is missing or the pair is absent; on success exactly that pair disappears and every other pair of that table, and every other table, stays |
| `Toggles.AddFollow` | backend/recipes/serializers.py:347-371 | following fails for an unknown user or author, for following oneself, and for an existing subscription, and otherwise appends exactly that pair |
| `Toggles.RemoveFollow` | backend/recipes/views.py:190-198 | unfollowing fails when the author is missing or the pair is absent, and otherwise removes exactly that pair |
| `Toggles.Subscriptions` | backend/recipes/views.py:169-171 | the listing contains a user exactly when the requester has a Follow row for them |
| `Toggles.AddToListWellformed` | backend/recipes/models.py:159-193 | a successful add keeps unique_favorite and unique_shopping_cart, and all other constraints |
| `Toggles.RemoveFromListWellformed` | backend/recipes/views.py:88-123 | a successful remove keeps all constraints and shortens its table by exactly one row |
| `Toggles.AddFollowWellformed` | backend/recipes/models.py:132-136 | a successful follow keeps unique_follow and all other constraints |
| `Toggles.RemoveFollowWellformed` | backend/recipes/views.py:190-194 | a successful unfollow keeps all constraints and removes exactly one Follow row |
| `Toggles.FollowKeepsNoSelfFollow` | backend/recipes/serializers.py:367-370 | because self-follows are refused, no Follow row pairs a user with themselves as long as rows only come from follow and unfollow |
| `Toggles.AddThenRemove` | backend/recipes/views.py:88-123 | adding a favourite or cart pair and then removing it restores the database exactly |
| `Toggles.AddTwiceFails` | backend/recipes/serializers.py:260-264 | the second of two identical adds is refused as already added |
| `Toggles.RemoveThenAdd` | backend/recipes/serializers.py:256-266 | a pair that was just removed can be added again, giving back the same set of pairs |
| `Toggles.RemoveAbsentFails` | backend/recipes/views.py:92-94 | removing a pair that is not there fails |
| `Toggles.SelfFollowRejected` | backend/recipes/serializers.py:367-370 | following oneself is always refused |
| `Toggles.FollowThenUnfollow` | backend/recipes/views.py:190-194 | following and then unfollowing restores the database exactly |
| `Toggles.UnfollowThenFollow` | backend/recipes/serializers.py:359-371 | after an unfollow, following the same author again succeeds (unless it is oneself) and gives back the same set of follows |
| `Toggles.SubscriptionsExact` | backend/recipes/views.py:169-171 | an author appears in the requester's listing if and only if the requester follows them |
| `Toggles.SubscriptionsTrackToggles` | backend/recipes/views.py:169-171 | after a follow the author is listed; after an unfollow the author is not |
| `ShoppingList.Aggregate` | backend/recipes/views.py:130-152 | the list has one line per distinct ingredient name among the rows, none for a name not there, and none for no rows; each amount is the sum over all rows of that name, each unit is the unit of the first such row, and lines come in first-encounter order |
| `ShoppingList.CollectDescribes` | backend/recipes/views.py:131-147 | the name-keyed dict the fold builds holds exactly the names seen, each with its running total and first unit, with keys in first-insertion order |
| `ShoppingList.CartRecipes` | backend/recipes/views.py:130 | the cart walked holds exactly the recipes of the user's ShoppingCart rows |
| `ShoppingList.CartNames` | backend/recipes/views.py:130-138 | the names walked are exactly the ingredient names of RecipeIngredient rows of recipes in the user's cart |
| `ShoppingList.DownloadShoppingCart` | backend/recipes/views.py:129-156 | the downloaded lines are the rendering of the aggregated list of the user's cart rows, in cart order and then row order |
| `ShoppingList.BuildBuyingList` | backend/recipes/views.py:130-147 | the outer loop over the cart builds the same dict as folding over all cart rows |
| `ShoppingList.AddRecipeRows` | backend/recipes/views.py:134-147 | the inner loop adds one recipe's rows to the dict: a new name gets the row's unit and amount, and a known name only gains the amount |
| `ShoppingList.WriteWishlist` | backend/recipes/views.py:149-152 | the output loop writes one rendered line per dict key, in key order |
| `ShoppingList.RenderLine` | backend/recipes/views.py:151-152 | a line is exactly the name, " - ", `str(amount)` (the shortest decimal numeral, no leading zero), a space, the unit and " \n", and it reads back: the numeral parses to the amount |
| `ShoppingList.RenderLineInjective` | backend/recipes/views.py:151-152 | a line of the form name, " - ", amount, " ", unit, " \n" determines its amount |
| `ShoppingList.EmptyCartEmptyFile` | backend/recipes/views.py:130-154 | an empty cart downloads an empty file |
| `ShoppingList.SaltExample` | backend/recipes/views.py:140-152 | 5 g and 3 g of Salt merge into the single line "Salt - 8 g \n" |
| `ShoppingList.SameNameDifferentUnits` | backend/recipes/views.py:140-147 | rows with the same name and different units merge, keeping the first unit and adding the amounts as bare numbers |
| `Text.Strip` | backend/users/models.py:19-20 | the result is the input with leading and trailing whitespace removed and neither end is whitespace |
| `Text.StripIdempotent` | backend/users/models.py:19-20 | stripping twice is the same as stripping once |
| `Text.NatToString` | backend/recipes/views.py:151 | an amount renders as a non-empty run of decimal digits without a leading zero |
| `Text.ParseNatToString` | backend/recipes/views.py:151 | reading the rendered digits back gives the amount |
| `Composition.ValidateCookingTime` | backend/recipes/serializers.py:187-192 | a cooking time passes exactly when it is at least 1 and is returned unchanged |
| `Composition.ValidateAmounts` | backend/recipes/serializers.py:176-185 | the amounts pass exactly when none is negative; zero passes |
| `Composition.Validate` | backend/recipes/serializers.py:151-192 | the payload passes exactly when every tag and ingredient exists, name and text are non-blank after trimming and fit 30 and 128 characters, the image is present on create, cooking_time is at least 1 and no amount is negative; the fields fail in declaration order (tags and ingredients, name, image, text, cooking_time), and a negative amount is reported only when every field passed; the validated name and text are the trimmed values |
| `Composition.BlankTextRejected` | backend/recipes/models.py:46-57 | a name or text made only of whitespace is refused |
| `Composition.ValidatedTextStored` | backend/recipes/models.py:46-57 | a validated name and text are non-empty, trimmed and within their column widths |
| `Composition.ZeroAmountAccepted` | backend/recipes/serializers.py:178-184 | amounts of zero pass validation |
| `Composition.NegativeAmountRejected` | backend/recipes/serializers.py:178-184 | a single negative amount anywhere rejects the payload |
| `Composition.CreateRecipe` | backend/recipes/serializers.py:151-209 | create succeeds exactly when every field passes, with the image required, and no amount is negative; a missing image is reported ahead of a negative amount; it adds one recipe with a fresh id, the requester as author and the trimmed name and text, then one ingredient row per entry and one tag row per tag, and changes nothing else |
| `Composition.ImageErrorBeforeAmounts` | backend/recipes/serializers.py:151-185 | with no image and an amount of -1 the payload fails on the image, not on the amount |
| `Composition.CreateRows` | backend/recipes/serializers.py:197-208 | the created recipe's ingredient rows and tag rows are exactly the payload's, one per entry and in payload order, and its author is the requester |
| `Composition.CreateWellformed` | backend/recipes/serializers.py:194-209 | creating a recipe keeps every table constraint |
| `Composition.DuplicateIngredientAccepted` | backend/recipes/serializers.py:176-206 | a payload that lists the same ingredient twice is accepted and creates two rows |
| `Composition.Overwrite` | backend/recipes/serializers.py:227-231 | update overwrites name, text and cooking time, replaces the image only when one is supplied, and keeps id, author and pub_date |
| `Composition.UpdateRecipe` | backend/recipes/serializers.py:211-233 | update fails for a missing recipe, then for an invalid payload with the image optional; otherwise it rewrites only the recipe (with the trimmed name and text), its tag rows and its ingredient rows |
| `Composition.UpdateIngredientRows` | backend/recipes/serializers.py:220-226 | after update the recipe's ingredient rows are exactly the payload's, no old row survives, and other recipes' rows are unchanged |
| `Composition.UpdateTagRows` | backend/recipes/serializers.py:214-219 | after update the recipe's tag rows are exactly the payload's, and other recipes' tag rows are unchanged |
| `Composition.UpdateFields` | backend/recipes/serializers.py:227-232 | after update the recipe reads back with the overwritten fields |
| `Composition.UpdateWellformed` | backend/recipes/serializers.py:211-233 | update keeps every table constraint |
| `Composition.DestroyRecipe` | backend/recipes/views.py:50-55 | destroying an unknown recipe fails; otherwise exactly that recipe id disappears, with its dependent rows |
| `Presentation.IsListed` | backend/recipes/serializers.py:135-147 | the favourite or cart flag is off without a signed-in user, and otherwise on exactly when adding the same pair would be refused as already added |
| `Presentation.ListedAfterAdd` | backend/recipes/serializers.py:135-147 | after a successful add, the flag for that user and recipe is on, and no other flag of either list changes |
| `Presentation.UnlistedAfterRemove` | backend/recipes/serializers.py:135-147 | after a successful remove, the flag for that user and recipe is off, and no other flag of either list changes |
| `Presentation.ListedIffAddRefused` | backend/recipes/serializers.py:135-147 | for an existing user and recipe, the flag is on if and only if adding the pair would be refused as already added |
| `Presentation.NoViewerNoFlags` | backend/recipes/serializers.py:135-147 | with no request or an anonymous user, every flag is false |
| `Presentation.IsSubscribed` | backend/users/serializers.py:35-39 | the user-detail flag is off without a signed-in user, and otherwise on exactly when the user is on the requester's subscription list |
| `Presentation.ShowFollowIsSubscribedAsWritten` | backend/recipes/serializers.py:328-332 | as written, the card flag is off without a signed-in user, and otherwise on exactly when the requester is on the listed user's subscription list |
| `Presentation.SubscribedTracksFollow` | backend/users/serializers.py:35-39 | the user-detail flag is on after a follow and off after an unfollow |
| `Presentation.ListedAuthorsSubscribed` | backend/recipes/serializers.py:328-332 | with the corrected flag, every author in the requester's subscription listing shows as subscribed |
| `Presentation.AsWrittenMeansFollowBack` | backend/recipes/serializers.py:328-332 | as written, the flag on a listed author is on only when that author follows the requester back |
| `Presentation.AsWrittenCounterexample` | backend/recipes/serializers.py:328-332 | with one follow from user 1 to user 2, user 1's listing shows user 2 with the flag off as written and on when corrected |
| `Presentation.CodePointOrder` | backend/recipes/models.py:74 | comparing names by code point, shorter prefix first, is a total order, so it is one collation the name ordering can use |
| `Presentation.RecipeLeTotal` | backend/recipes/models.py:74 | under any total order on names, any two recipes are comparable by (name, pub_date) |
| `Presentation.RecipeLeTransitive` | backend/recipes/models.py:74 | under any total order on names, the (name, pub_date) order is transitive |
| `Presentation.Sort` | backend/recipes/models.py:74 | under any total order on names, the default ordering yields a permutation of the recipes sorted by name and then pub_date |
| `Presentation.ShownRecipes` | backend/recipes/serializers.py:334-341 | under any total order on names, a card shows min(6, number of the author's recipes) of the author's recipes, in order; every recipe shown comes no later than every recipe left out, and none is left out when there are at most six |
| `Presentation.FirstRecipeShown` | backend/recipes/serializers.py:334-341 | under any total order on names, a recipe that sorts strictly before all of its author's other recipes is on the card |
| `Presentation.Card` | backend/recipes/serializers.py:310-344 | a card's recipes_count is the author's full recipe count, and its recipes are the capped, ordered prefix, min(6, recipes_count) of them |
| `Presentation.SubscriptionCards` | backend/recipes/serializers.py:310-344 | there is one card per listed author, in listing order; the flag is on exactly when the author follows the requester back; recipes_count is the author's full count and the recipes are the capped, ordered prefix |
| `Presentation.SubscriptionCardsCorrected` | backend/users/serializers.py:35-39 | with the intended flag the cards are the same, except that every card is marked subscribed |
| `Presentation.CardsCounterexample` | backend/recipes/serializers.py:328-332 | with one follow from user 1 to user 2, user 1's one card shows user 2 unsubscribed as written and subscribed when corrected |
| `Presentation.CountAfterCreate` | backend/recipes/serializers.py:343-344 | recipes_count counts all the author's recipes: creating one adds exactly one |
| `Accounts.FullName` | backend/users/models.py:18-20 | the full name is first name, space, last name with surrounding whitespace removed |
| `Accounts.FullNameJoins` | backend/users/models.py:18-20 | with both names present and trimmed, the full name is the two joined by one space |
| `Accounts.FullNameWithoutLastName` | backend/users/models.py:18-23 | with no last name, the full name equals the short name for a trimmed first name |
| `Accounts.FullNameWithoutFirstName` | backend/users/models.py:18-20 | with no first name, the full name is the last name, without a leading space |
| `Accounts.ShortNameUntrimmed` | backend/users/models.py:18-23 | the short name is the first name unchanged: with surrounding whitespace it differs from the full name of a user without a last name |
| `Accounts.FullNameBlank` | backend/users/models.py:18-20 | blank names give the empty string, never a lone space |
| `Accounts.ValidateToken` | backend/users/serializers.py:50-65 | validation succeeds exactly when email and password are both present and non-empty and authenticate finds a user; a missing credential fails first, then a failed authentication; on success the user is the authenticated one and the other attrs are unchanged |
| `Accounts.MissingCredentialsSkipBackend` | backend/users/serializers.py:54-62 | a missing or empty credential fails the same way whatever authenticate would answer |
| `Accounts.SpacePasswordReachesBackend` | backend/users/serializers.py:44-56 | the password is not trimmed: a one-space password is passed to authenticate |

## Left out

- HTTP: status codes, `Response` and `HttpResponse` objects, the
  Content-Disposition header and absolute image URLs. Operations return a
  `Result` instead.
- Permissions, pagination and the filter classes. Their code is not part of
  this model.
- The serializers' DELETE branches
  (`recipes/serializers.py:268-272, 301-305`). The views never run the
  serializer on DELETE, so these branches cannot be reached.
- Base64 image decoding. An image is an opaque string.
- The internals of `authenticate`, password hashing and djoser. The token
  check takes `authenticate` as a parameter.
- Clocks. `pub_date` is the parameter `now`; `created_at` and `added_date`
  are not stored.
- Orderings. Follow rows are kept in insertion order; `ordering =
  ['-created_at']` is not modelled. The username ordering of users, and the
  name and id orderings of ingredients and tags, are not modelled either:
  listings keep table order. The shopping-list view walks
  `request.user.shopping_cart.all()` and `RecipeIngredient.objects.filter(...)`
  (`recipes/views.py:130, 134`). Neither has an ordering, so the database
  may return their rows in any order. The model walks them in table order,
  which fixes the order of the file's lines and which unit is seen first
  for a name. The recipe ordering is modelled, because it decides which
  recipes fill a subscription card.
- Deleting ingredients and tags. Only the admin site does this, and the
  admin is not part of this model.
- Transactions and concurrent requests. The code draws no transaction
  boundary.
- `Composition.Validate`: reports one error where the framework collects
  every failing field into one response. The error reported is the first
  failing field in declaration order, and the amount check runs only when
  every field passed, as `validate` does.
- `Composition.Validate`: does not model the null-character check of the
  framework's text fields, or the 300-character limit on the image name.
- `Composition.Validate`: does not reject amounts or cooking times above
  32767. The serializer declares plain integer fields, so the column's
  smallint bound only shows up as a database error. The model's integers
  are unbounded.
- `Composition.UpdateRecipe`: a payload without an image stands for a
  partial update; other omitted fields of a partial update are not
  modelled, so name, text and cooking_time are always supplied.
- `Toggles.RemoveFromList`: reports a missing pair as `NotFound`, the same
  outcome as a missing recipe, although the code raises an unhandled
  `DoesNotExist` there.
- `Presentation.Sort`: recipes with equal name and pub_date come in the
  model's insertion-sort order. The database leaves their relative order
  unspecified, so the contracts about the cap are stated in terms of the
  order only.
- `Schema.AddUser`: stands for the user-creation endpoint, whose code is not
  part of this model. It enforces non-blank email and username, the
  20-character username width, and unique email and username. It does not
  check the email format or the 254-character email width.

## Findings

| source | as written | input that shows it | evidently intended | confidence | as-written member | corrected member |
|---|---|---|---|---|---|---|
| backend/recipes/serializers.py:332 | `obj.follower.filter(user=obj, author=request.user)` asks whether the listed author follows the requester | user 1 follows user 2 only; user 1's subscription listing shows user 2 with `is_subscribed` false | `Follow(user=request.user, author=obj)`, as `UserDetailSerializer` does at backend/users/serializers.py:39, so every listed author shows true | high (not executed) | `Presentation.SubscriptionCards`, `Presentation.CardsCounterexample` | `Presentation.SubscriptionCardsCorrected`, `Presentation.ListedAuthorsSubscribed` |

=== FILE: accounts.dfy ===
/** The account side: User.get_full_name / get_short_name and the token
    login serializer's `validate`. */
module Accounts {
  import opened Results
  import opened Text
  import opened Schema

  /** get_full_name: first and last name joined by one space, with Python's
      `str.strip()` applied to the result. */
  function FullName(u: User): (r: string)
    ensures Trimmed(r)
    ensures StripsTo(u.firstName + " " + u.lastName, r)
  {
    Strip(u.firstName + " " + u.lastName)
  }

  /** get_short_name: the first name as stored. */
  function ShortName(u: User): string {
    u.firstName
  }

  /** get_short_name does not trim: a first name with surrounding
      whitespace comes back as stored, and then differs from the full name
      the same user gets without a last name. */
  lemma ShortNameUntrimmed(u: User)
    requires u.lastName == "" && !Trimmed(u.firstName)
    ensures ShortName(u) == u.firstName
    ensures ShortName(u) != FullName(u)
  {
  }

  /** With both parts present and already trimmed, the full name is the two
      parts joined by one space. */
  lemma FullNameJoins(u: User)
    requires |u.firstName| > 0 && |u.lastName| > 0
    requires Trimmed(u.firstName) && Trimmed(u.lastName)
    ensures FullName(u) == u.firstName + " " + u.lastName
  {
    var s := u.firstName + " " + u.lastName;
    assert s[0] == u.firstName[0] && s[|s| - 1] == u.lastName[|u.lastName| - 1];
    StripTrimmed(s);
  }

  /** With no last name, the trailing separator is stripped and the full
      name is the short name (for a trimmed first name). */
  lemma FullNameWithoutLastName(u: User)
    requires u.lastName == "" && Trimmed(u.firstName)
    ensures FullName(u) == ShortName(u)
  {
    var s := u.firstName + " " + u.lastName;
    var n := |u.firstName|;
    assert s[0..n] == u.firstName;
    assert SpaceBetween(s, n, |s|) by {
      assert |s| == n + 1 && s[n] == ' ';
    }
    assert StripsTo(s, u.firstName);
    StripUnique(s, FullName(u), u.firstName);
  }

  /** With no first name, the leading separator is stripped. */
  lemma FullNameWithoutFirstName(u: User)
    requires u.firstName == "" && Trimmed(u.lastName)
    ensures FullName(u) == u.lastName
  {
    var s := u.firstName + " " + u.lastName;
    assert s[1..|s|] == u.lastName;
    assert SpaceBetween(s, 0, 1) by {
      assert s[0] == ' ';
    }
    assert StripsTo(s, u.lastName);
    StripUnique(s, FullName(u), u.lastName);
  }

  /** Blank names give an empty full name, never a lone space. */
  lemma FullNameBlank(u: User)
    requires AllSpace(u.firstName) && AllSpace(u.lastName)
    ensures FullName(u) == ""
  {
    var s := u.firstName + " " + u.lastName;
    var n := |u.firstName|;
    assert AllSpace(s) by {
      forall k | 0 <= k < |s| ensures IsSpace(s[k]) {
        if k < n {
          assert s[k] == u.firstName[k];
        } else if k > n {
          assert s[k] == u.lastName[k - n - 1];
        }
      }
    }
    StripAllSpace(s);
  }

  // ---------------------------------------------------------------------------
  // Token login.

  /** Python truthiness of an optional string: None and "" are false. */
  predicate Truthy(v: Option<string>) {
    v.Some? && |v.value| > 0
  }

  function Get(attrs: map<string, string>, key: string): (r: Option<string>)
    ensures r.Some? <==> key in attrs
    ensures r.Some? ==> r.value == attrs[key]
  {
    if key in attrs then Some(attrs[key]) else None
  }

  /** The validated data with `attrs['user']` set. */
  datatype TokenAttrs = TokenAttrs(fields: map<string, string>, user: UserId)

  /** AuthTokenSerializer.validate. `authenticate` stands for Django's
      authentication backends: given an email and a password it yields the
      matching user or nothing. It is consulted only when both credentials
      are truthy. */
  function ValidateToken(attrs: map<string, string>, authenticate: (string, string) -> Option<UserId>): (r: Result<TokenAttrs>)
    ensures r.Ok? <==>
      && Truthy(Get(attrs, "email")) && Truthy(Get(attrs, "password"))
      && authenticate(attrs["email"], attrs["password"]).Some?
    ensures !(Truthy(Get(attrs, "email")) && Truthy(Get(attrs, "password"))) ==> r == Err(MissingCredentials)
    ensures (Truthy(Get(attrs, "email")) && Truthy(Get(attrs, "password"))
             && authenticate(attrs["email"], attrs["password"]).None?) ==> r == Err(InvalidCredentials)
    ensures r.Ok? ==> r.value.fields == attrs && Some(r.value.user) == authenticate(attrs["email"], attrs["password"])
  {
    var email := Get(attrs, "email");
    var password := Get(attrs, "password");
    if Truthy(email) && Truthy(password) then
      match authenticate(email.value, password.value)
      case None => Err(InvalidCredentials)
      case Some(user) => Ok(TokenAttrs(attrs, user))
    else
      Err(MissingCredentials)
  }

  /** A missing or empty credential is refused whatever the backends would
      have said. */
  lemma MissingCredentialsSkipBackend(attrs: map<string, string>,
                                      a1: (string, string) -> Option<UserId>,
                                      a2: (string, string) -> Option<UserId>)
    requires "email" !in attrs || "password" !in attrs || attrs["email"] == "" || attrs["password"] == ""
    ensures ValidateToken(attrs, a1) == ValidateToken(attrs, a2) == Err(MissingCredentials)
  {
  }

  /** The password is not trimmed: a password of one space is truthy and
      reaches the backends. */
  lemma SpacePasswordReachesBackend(email: string, authenticate: (string, string) -> Option<UserId>)
    requires |email| > 0
    ensures ValidateToken(map["email" := email, "password" := " "], authenticate).Ok?
            <==> authenticate(email, " ").Some?
  {
  }
}

=== FILE: composition.dfy ===
/** Recipe composition (CreateRecipeSerializer in recipes/serializers.py):
    input validation, create, update, and the view's destroy. Create writes
    one RecipeIngredient row per input entry and one ReceiptTag row per input
    tag; update replaces both sets wholesale. There is deliberately no check
    for an ingredient listed twice. */
module Composition {
  import opened Results
  import opened Seqs
  import opened Schema
  import opened Text

  /** One element of the `ingredients` payload: `{"id": ..., "amount": ...}`. */
  datatype IngredientEntry = IngredientEntry(id: IngredientId, amount: int)

  /** The request payload. `image == None` is a partial update that omits it. */
  datatype RecipeInput = RecipeInput(
    name: string,
    image: Option<string>,
    text: string,
    cookingTime: int,
    ingredients: seq<IngredientEntry>,
    tags: seq<TagId>)

  // ---------------------------------------------------------------------------
  // Validation.

  /** Every referenced ingredient and tag exists (the primary-key fields). */
  ghost predicate RefsExist(db: Db, input: RecipeInput) {
    && (forall e | e in input.ingredients :: e.id in IngredientIds(db))
    && (forall t | t in input.tags :: t in TagIds(db))
  }

  predicate AmountsNonNegative(entries: seq<IngredientEntry>) {
    forall e | e in entries :: e.amount >= 0
  }

  /** validate_cooking_time. */
  function ValidateCookingTime(t: int): (r: Result<int>)
    ensures r.Ok? <==> t >= MinCookingTime
    ensures r.Ok? ==> r.value == t
    ensures r.Err? ==> r.error == InvalidCookingTime
  {
    if t <= 0 then Err(InvalidCookingTime) else Ok(t)
  }

  /** The loop of `validate`: the first negative amount raises. */
  function ValidateAmounts(entries: seq<IngredientEntry>): (r: Result<seq<IngredientEntry>>)
    ensures r.Ok? <==> AmountsNonNegative(entries)
    ensures r.Ok? ==> r.value == entries
    ensures r.Err? ==> r.error == NegativeAmount
  {
    if |entries| == 0 then Ok(entries)
    else if entries[0].amount < 0 then Err(NegativeAmount)
    else
      var rest := ValidateAmounts(entries[1..]);
      assert entries == [entries[0]] + entries[1..];
      if rest.Err? then rest else Ok(entries)
  }

  /** Column widths of `Recipe.name` and `Recipe.text`. */
  const NameMaxLength: nat := 30
  const TextMaxLength: nat := 128

  /** A CharField generated from a model column without `blank=True`: the
      input is trimmed, an empty result is refused, and the trimmed value
      must fit the column. */
  predicate TextFieldOk(s: string, maxLength: nat) {
    Strip(s) != [] && |Strip(s)| <= maxLength
  }

  /** The validated payload: the text fields hold their trimmed values. */
  function Cleaned(input: RecipeInput): RecipeInput {
    input.(name := Strip(input.name), text := Strip(input.text))
  }

  /** Every field-level check passes. The image is required on create and
      optional on a partial update. */
  ghost predicate FieldsValid(db: Db, input: RecipeInput, creating: bool) {
    && RefsExist(db, input)
    && TextFieldOk(input.name, NameMaxLength)
    && (creating ==> input.image.Some?)
    && TextFieldOk(input.text, TextMaxLength)
    && input.cookingTime >= MinCookingTime
  }

  /** `is_valid()`. The fields are checked in declaration order (tags,
      ingredients, name, image, text, cooking_time) and the first failing
      one names the error; the object-level `validate` on the amounts runs
      only when every field passed. */
  function Validate(db: Db, input: RecipeInput, creating: bool): (r: Result<RecipeInput>)
    ensures r.Ok? <==> FieldsValid(db, input, creating) && AmountsNonNegative(input.ingredients)
    ensures r.Ok? ==> r.value == Cleaned(input)
    ensures !RefsExist(db, input) ==> r == Err(UnknownReference)
    ensures RefsExist(db, input) && !TextFieldOk(input.name, NameMaxLength) ==> r == Err(InvalidText)
    ensures (RefsExist(db, input) && TextFieldOk(input.name, NameMaxLength) && creating && input.image.None?)
              ==> r == Err(ImageRequired)
    ensures (RefsExist(db, input) && TextFieldOk(input.name, NameMaxLength) && (creating ==> input.image.Some?)
             && !TextFieldOk(input.text, TextMaxLength)) ==> r == Err(InvalidText)
    ensures (RefsExist(db, input) && TextFieldOk(input.name, NameMaxLength) && (creating ==> input.image.Some?)
             && TextFieldOk(input.text, TextMaxLength) && input.cookingTime < MinCookingTime)
              ==> r == Err(InvalidCookingTime)
    ensures !FieldsValid(db, input, creating) ==> r.Err? && r.error != NegativeAmount
    ensures FieldsValid(db, input, creating) && !AmountsNonNegative(input.ingredients) ==> r == Err(NegativeAmount)
  {
    if exists t :: t in input.tags && t !in TagIds(db) then Err(UnknownReference)
    else if exists e :: e in input.ingredients && e.id !in IngredientIds(db) then Err(UnknownReference)
    else if !TextFieldOk(input.name, NameMaxLength) then Err(InvalidText)
    else if creating && input.image.None? then Err(ImageRequired)
    else if !TextFieldOk(input.text, TextMaxLength) then Err(InvalidText)
    else
      match ValidateCookingTime(input.cookingTime)
      case Err(e) => Err(e)
      case Ok(_) =>
        match ValidateAmounts(input.ingredients)
        case Err(e) => Err(e)
        case Ok(_) => Ok(Cleaned(input))
  }

  /** An amount of zero passes validation. */
  lemma ZeroAmountAccepted(db: Db, input: RecipeInput, creating: bool)
    requires FieldsValid(db, input, creating)
    requires forall e | e in input.ingredients :: e.amount == 0
    ensures Validate(db, input, creating).Ok?
  {
  }

  /** One negative amount anywhere rejects the payload. */
  lemma NegativeAmountRejected(db: Db, input: RecipeInput, creating: bool, k: nat)
    requires k < |input.ingredients| && input.ingredients[k].amount < 0
    ensures Validate(db, input, creating).Err?
  {
    assert input.ingredients[k] in input.ingredients;
  }

  /** A name or text made only of whitespace is refused as blank. */
  lemma BlankTextRejected(db: Db, input: RecipeInput, creating: bool)
    requires AllSpace(input.name) || AllSpace(input.text)
    ensures Validate(db, input, creating).Err?
  {
    if AllSpace(input.name) {
      StripAllSpace(input.name);
    } else {
      StripAllSpace(input.text);
    }
  }

  /** The stored name and text are trimmed, non-empty and fit their columns. */
  lemma ValidatedTextStored(db: Db, input: RecipeInput, creating: bool)
    requires Validate(db, input, creating).Ok?
    ensures var v := Validate(db, input, creating).value;
      && v.name != [] && |v.name| <= NameMaxLength && Trimmed(v.name)
      && v.text != [] && |v.text| <= TextMaxLength && Trimmed(v.text)
      && Strip(v.name) == v.name && Strip(v.text) == v.text
  {
    StripIdempotent(input.name);
    StripIdempotent(input.text);
  }

  // ---------------------------------------------------------------------------
  // Rows written for a recipe.

  /** One RecipeIngredient row per entry, in payload order. */
  function IngredientRows(id: RecipeId, entries: seq<IngredientEntry>): (r: seq<RecipeIngredient>)
    requires AmountsNonNegative(entries)
    ensures |r| == |entries|
    ensures forall i | 0 <= i < |entries| :: r[i] == RecipeIngredient(id, entries[i].id, entries[i].amount)
  {
    seq(|entries|, i requires 0 <= i < |entries| =>
      assert entries[i] in entries;
      RecipeIngredient(id, entries[i].id, entries[i].amount))
  }

  /** One ReceiptTag row per tag, in payload order. */
  function TagRows(id: RecipeId, tags: seq<TagId>): (r: seq<RecipeTag>)
    ensures |r| == |tags|
    ensures forall i | 0 <= i < |tags| :: r[i] == RecipeTag(id, tags[i])
  {
    seq(|tags|, i requires 0 <= i < |tags| => RecipeTag(id, tags[i]))
  }

  // ---------------------------------------------------------------------------
  // Create.

  /** `create`: after validation, a Recipe row authored by the requester with
      a fresh id and `now` as pub_date, then one RecipeIngredient row per
      entry and one ReceiptTag row per tag, appended to their tables. The
      image is a required field, so its absence is a field error and comes
      before the amount check. */
  function CreateRecipe(db: Db, author: UserId, input: RecipeInput, now: int): (r: Result<(Db, RecipeId)>)
    ensures r.Err? <==> !FieldsValid(db, input, true) || !AmountsNonNegative(input.ingredients)
    ensures r.Err? ==> r == Err(Validate(db, input, true).error)
    ensures input.image.None? && RefsExist(db, input) && TextFieldOk(input.name, NameMaxLength) ==> r == Err(ImageRequired)
    ensures r.Ok? ==>
      var (d, id) := r.value;
      && input.image.Some?
      && id !in RecipeIds(db)
      && d.recipes == db.recipes + [Recipe(id, author, Strip(input.name), input.image.value, Strip(input.text),
                                           input.cookingTime, now)]
      && d.recipeIngredients == db.recipeIngredients + IngredientRows(id, input.ingredients)
      && d.recipeTags == db.recipeTags + TagRows(id, input.tags)
      && d.users == db.users && d.ingredients == db.ingredients && d.tags == db.tags
      && d.follows == db.follows && d.favorites == db.favorites && d.carts == db.carts
  {
    match Validate(db, input, true)
    case Err(e) => Err(e)
    case Ok(data) =>
      var id := NextKey(db.recipes, RecipeKey);
      assert id !in RecipeIds(db);
      var recipe := Recipe(id, author, data.name, data.image.value, data.text, data.cookingTime, now);
      Ok((db.(recipes := db.recipes + [recipe],
              recipeIngredients := db.recipeIngredients + IngredientRows(id, data.ingredients),
              recipeTags := db.recipeTags + TagRows(id, data.tags)),
          id))
  }

  /** A missing image is reported before a negative amount: with no image
      and an amount of -1 the payload fails on the image. */
  lemma ImageErrorBeforeAmounts(db: Db, author: UserId, ing: IngredientId, now: int)
    requires ing in IngredientIds(db)
    ensures CreateRecipe(db, author, RecipeInput("Soup", None, "Boil.", 10, [IngredientEntry(ing, -1)], []), now)
         == Err(ImageRequired)
  {
    SoupIsValidText();
  }

  /** The sample name and text are valid text fields. */
  lemma SoupIsValidText()
    ensures Strip("Soup") == "Soup" && TextFieldOk("Soup", NameMaxLength)
    ensures Strip("Boil.") == "Boil." && TextFieldOk("Boil.", TextMaxLength)
  {
    StripTrimmed("Soup");
    StripTrimmed("Boil.");
  }

  /** A created recipe owns exactly the rows of its payload: one ingredient
      row per entry and one tag row per tag, in payload order. */
  lemma CreateRows(db: Db, author: UserId, input: RecipeInput, now: int)
    requires JoinRowsValid(db)
    requires CreateRecipe(db, author, input, now).Ok?
    ensures var (d, id) := CreateRecipe(db, author, input, now).value;
      && IngredientRowsOf(d, id) == IngredientRows(id, input.ingredients)
      && TagRowsOf(d, id) == TagRows(id, input.tags)
      && FindRecipe(d, id).Some? && FindRecipe(d, id).value.author == author
  {
    var (d, id) := CreateRecipe(db, author, input, now).value;
    var ki := (x: RecipeIngredient) => x.recipe == id;
    var kt := (x: RecipeTag) => x.recipe == id;
    FilterConcat(db.recipeIngredients, IngredientRows(id, input.ingredients), ki);
    FilterConcat(db.recipeTags, TagRows(id, input.tags), kt);
    FilterKeepsAll(IngredientRows(id, input.ingredients), ki);
    FilterKeepsAll(TagRows(id, input.tags), kt);
    assert Filter(db.recipeIngredients, ki) == [] by { FilterNone(db.recipeIngredients, ki); }
    assert Filter(db.recipeTags, kt) == [] by { FilterNone(db.recipeTags, kt); }
    var r := Recipe(id, author, Strip(input.name), input.image.value, Strip(input.text), input.cookingTime, now);
    assert r in d.recipes;
  }

  lemma CreateWellformed(db: Db, author: UserId, input: RecipeInput, now: int)
    requires Wellformed(db)
    requires author in UserIds(db)
    requires CreateRecipe(db, author, input, now).Ok?
    ensures Wellformed(CreateRecipe(db, author, input, now).value.0)
  {
    var (d, id) := CreateRecipe(db, author, input, now).value;
    var r := Recipe(id, author, Strip(input.name), input.image.value, Strip(input.text), input.cookingTime, now);
    AppendUniqueBy(db.recipes, r, RecipeKey);
    assert RecipeIds(d) == RecipeIds(db) + {id};
    forall x | x in d.recipeIngredients ensures x.recipe in RecipeIds(d) && x.ingredient in IngredientIds(d) {
      if x !in db.recipeIngredients {
        var rows := IngredientRows(id, input.ingredients);
        var i :| 0 <= i < |rows| && rows[i] == x;
        assert input.ingredients[i] in input.ingredients;
      }
    }
    forall x | x in d.recipeTags ensures x.recipe in RecipeIds(d) && x.tag in TagIds(d) {
      if x !in db.recipeTags {
        var rows := TagRows(id, input.tags);
        var i :| 0 <= i < |rows| && rows[i] == x;
        assert input.tags[i] in input.tags;
      }
    }
  }

  /** The payload's ingredient list is not checked for repeats: listing the
      same ingredient twice creates two rows for it. */
  lemma DuplicateIngredientAccepted(db: Db, author: UserId, ing: IngredientId, now: int)
    requires ing in IngredientIds(db)
    ensures var input := RecipeInput("Soup", Some("soup.png"), "Boil.", 10,
                                     [IngredientEntry(ing, 2), IngredientEntry(ing, 3)], []);
      && CreateRecipe(db, author, input, now).Ok?
      && |CreateRecipe(db, author, input, now).value.0.recipeIngredients| == |db.recipeIngredients| + 2
  {
    SoupIsValidText();
  }

  // ---------------------------------------------------------------------------
  // Update.

  /** The scalar part of `update`: name, text and cooking_time are always
      overwritten; the image only when one is supplied. */
  function Overwrite(prev: Recipe, input: RecipeInput): (r: Recipe)
    ensures r.id == prev.id && r.author == prev.author && r.pubDate == prev.pubDate
    ensures r.name == input.name && r.text == input.text && r.cookingTime == input.cookingTime
    ensures r.image == (if input.image.Some? then input.image.value else prev.image)
  {
    var withImage := if input.image.Some? then prev.(image := input.image.value) else prev;
    withImage.(name := input.name, text := input.text, cookingTime := input.cookingTime)
  }

  /** The recipe table with the row `id` overwritten from `input`. */
  function OverwriteRecipe(rs: seq<Recipe>, id: RecipeId, input: RecipeInput): (r: seq<Recipe>)
    ensures |r| == |rs|
    ensures forall i | 0 <= i < |rs| :: r[i] == if rs[i].id == id then Overwrite(rs[i], input) else rs[i]
  {
    seq(|rs|, i requires 0 <= i < |rs| => if rs[i].id == id then Overwrite(rs[i], input) else rs[i])
  }

  /** `update` through the view: 404 for an unknown recipe, then validation,
      then the tag rows and the ingredient rows of the recipe are deleted and
      re-created from the payload, and the scalar fields overwritten. */
  function UpdateRecipe(db: Db, id: RecipeId, input: RecipeInput): (r: Result<Db>)
    ensures r.Err? <==> id !in RecipeIds(db) || Validate(db, input, false).Err?
    ensures r.Err? && id !in RecipeIds(db) ==> r.error == NotFound
    ensures r.Err? && id in RecipeIds(db) ==> r.error == Validate(db, input, false).error
    ensures r.Ok? ==>
      && r.value.recipes == OverwriteRecipe(db.recipes, id, Cleaned(input))
      && r.value.recipeTags == Filter(db.recipeTags, (x: RecipeTag) => x.recipe != id) + TagRows(id, input.tags)
      && r.value.recipeIngredients
           == Filter(db.recipeIngredients, (x: RecipeIngredient) => x.recipe != id) + IngredientRows(id, input.ingredients)
      && r.value.users == db.users && r.value.ingredients == db.ingredients && r.value.tags == db.tags
      && r.value.follows == db.follows && r.value.favorites == db.favorites && r.value.carts == db.carts
  {
    if id !in RecipeIds(db) then Err(NotFound)
    else
      match Validate(db, input, false)
      case Err(e) => Err(e)
      case Ok(data) =>
        var tagsKept := Filter(db.recipeTags, (x: RecipeTag) => x.recipe != id);
        var rowsKept := Filter(db.recipeIngredients, (x: RecipeIngredient) => x.recipe != id);
        Ok(db.(recipeTags := tagsKept + TagRows(id, data.tags),
               recipeIngredients := rowsKept + IngredientRows(id, data.ingredients),
               recipes := OverwriteRecipe(db.recipes, id, data)))
  }

  /** After an update the recipe's ingredient rows are exactly the payload's
      (no old row survives) and every other recipe's rows are untouched. */
  lemma UpdateIngredientRows(db: Db, id: RecipeId, input: RecipeInput)
    requires UpdateRecipe(db, id, input).Ok?
    ensures var d := UpdateRecipe(db, id, input).value;
      && IngredientRowsOf(d, id) == IngredientRows(id, input.ingredients)
      && (forall x: RecipeIngredient | x.recipe != id :: x in d.recipeIngredients <==> x in db.recipeIngredients)
  {
    var rows := IngredientRows(id, input.ingredients);
    assert forall x | x in rows :: x.recipe == id;
    FilterReplace(db.recipeIngredients, rows,
                  (x: RecipeIngredient) => x.recipe != id, (x: RecipeIngredient) => x.recipe == id);
  }

  /** The same for the recipe's tag rows. */
  lemma UpdateTagRows(db: Db, id: RecipeId, input: RecipeInput)
    requires UpdateRecipe(db, id, input).Ok?
    ensures var d := UpdateRecipe(db, id, input).value;
      && TagRowsOf(d, id) == TagRows(id, input.tags)
      && (forall x: RecipeTag | x.recipe != id :: x in d.recipeTags <==> x in db.recipeTags)
  {
    var rows := TagRows(id, input.tags);
    assert forall x | x in rows :: x.recipe == id;
    FilterReplace(db.recipeTags, rows, (x: RecipeTag) => x.recipe != id, (x: RecipeTag) => x.recipe == id);
  }

  /** After an update the recipe reads back with its scalar fields overwritten
      as Overwrite says, keeping its id, author and pub_date. */
  lemma UpdateFields(db: Db, id: RecipeId, input: RecipeInput)
    requires KeysUnique(db)
    requires UpdateRecipe(db, id, input).Ok?
    ensures FindRecipe(UpdateRecipe(db, id, input).value, id) == Some(Overwrite(FindRecipe(db, id).value, Cleaned(input)))
  {
    var d := UpdateRecipe(db, id, input).value;
    var prev := FindRecipe(db, id).value;
    var i :| 0 <= i < |db.recipes| && db.recipes[i] == prev;
    OverwriteKeepsKeys(db.recipes, id, Cleaned(input));
    assert d.recipes[i] == Overwrite(prev, Cleaned(input));
    assert KeysUnique(d);
    FindRecipeUnique(d, id, Overwrite(prev, Cleaned(input)));
  }

  lemma OverwriteKeepsKeys(rs: seq<Recipe>, id: RecipeId, input: RecipeInput)
    requires UniqueBy(rs, RecipeKey)
    ensures UniqueBy(OverwriteRecipe(rs, id, input), RecipeKey)
    ensures forall i | 0 <= i < |rs| :: OverwriteRecipe(rs, id, input)[i].id == rs[i].id
  {
    var r := OverwriteRecipe(rs, id, input);
    forall i, j | 0 <= i < j < |r| ensures RecipeKey(r[i]) != RecipeKey(r[j]) {
      assert RecipeKey(rs[i]) != RecipeKey(rs[j]);
    }
  }

  lemma UpdateWellformed(db: Db, id: RecipeId, input: RecipeInput)
    requires Wellformed(db)
    requires UpdateRecipe(db, id, input).Ok?
    ensures Wellformed(UpdateRecipe(db, id, input).value)
  {
    var d := UpdateRecipe(db, id, input).value;
    OverwriteKeepsKeys(db.recipes, id, Cleaned(input));
    assert RecipeIds(d) == RecipeIds(db) by {
      forall x | x in RecipeIds(db) ensures x in RecipeIds(d) {
        var k :| 0 <= k < |db.recipes| && db.recipes[k].id == x;
        assert d.recipes[k].id == x;
      }
      forall x | x in RecipeIds(d) ensures x in RecipeIds(db) {
        var k :| 0 <= k < |d.recipes| && d.recipes[k].id == x;
        assert db.recipes[k].id == x;
      }
    }
    forall r | r in d.recipes ensures r.author in UserIds(d) && r.cookingTime >= MinCookingTime {
      var k :| 0 <= k < |d.recipes| && d.recipes[k] == r;
      assert db.recipes[k] in db.recipes;
    }
    forall x | x in d.recipeIngredients ensures x.recipe in RecipeIds(d) && x.ingredient in IngredientIds(d) {
      var rows := IngredientRows(id, input.ingredients);
      if x in rows {
        var i :| 0 <= i < |rows| && rows[i] == x;
        assert input.ingredients[i] in input.ingredients;
      }
    }
    forall x | x in d.recipeTags ensures x.recipe in RecipeIds(d) && x.tag in TagIds(d) {
      var rows := TagRows(id, input.tags);
      if x in rows {
        var i :| 0 <= i < |rows| && rows[i] == x;
        assert input.tags[i] in input.tags;
      }
    }
  }

  // ---------------------------------------------------------------------------
  // Destroy.

  /** RecipeViewSet.destroy: 404 for an unknown recipe, else the cascade. */
  function DestroyRecipe(db: Db, id: RecipeId): (r: Result<Db>)
    ensures r.Err? <==> id !in RecipeIds(db)
    ensures r.Err? ==> r.error == NotFound
    ensures r.Ok? ==> id !in RecipeIds(r.value) && RecipeIds(r.value) == RecipeIds(db) - {id}
    ensures r.Ok? ==> r.value == DeleteRecipe(db, id)
  {
    if id !in RecipeIds(db) then Err(NotFound)
    else
      DeleteRecipeIds(db, id);
      Ok(DeleteRecipe(db, id))
  }
}

=== FILE: presentation.dfy ===
/** What the read serializers show about a recipe or a user to the person
    asking: the favourite and cart flags of ShowRecipeSerializer, the two
    `is_subscribed` flags, and the subscription cards of ListFollowViewSet
    with their first RECIPES_LIMIT recipes in the model's (name, pub_date)
    order. */
module Presentation {
  import opened Results
  import opened Seqs
  import opened Schema
  import opened Toggles
  // Only for CountAfterCreate, which ties recipes_count to recipe creation.
  import Composition

  /** `settings.RECIPES_LIMIT`. */
  const RecipesLimit: nat := 6

  /** The serializer context: no request at all, an anonymous request, or a
      signed-in user. The first two answer every flag with False. */
  datatype Viewer = NoRequest | Anonymous | SignedIn(user: UserId)

  // ---------------------------------------------------------------------------
  // Recipe flags.

  /** get_is_favorited (Favorites) and get_is_in_shopping_cart (Cart): off
      without a signed-in user, and otherwise on exactly when adding the
      same pair would be refused as a repeat. */
  function IsListed(db: Db, list: RecipeList, viewer: Viewer, recipe: RecipeId): (b: bool)
    ensures !viewer.SignedIn? ==> !b
    ensures viewer.SignedIn? && viewer.user in UserIds(db) && recipe in RecipeIds(db) ==>
              (b <==> AddToList(db, list, viewer.user, recipe) == Err(AlreadyAdded))
  {
    viewer.SignedIn? && Pair(viewer.user, recipe) in Rows(db, list)
  }

  /** A successful add turns the viewer's flag on and changes no other flag
      of that list or of the other list. */
  lemma ListedAfterAdd(db: Db, list: RecipeList, user: UserId, recipe: RecipeId)
    requires AddToList(db, list, user, recipe).Ok?
    ensures var d := AddToList(db, list, user, recipe).value;
      && IsListed(d, list, SignedIn(user), recipe)
      && (forall v: Viewer, x: RecipeId | v != SignedIn(user) || x != recipe ::
            IsListed(d, list, v, x) == IsListed(db, list, v, x))
      && (forall l: RecipeList, v: Viewer, x: RecipeId | l != list ::
            IsListed(d, l, v, x) == IsListed(db, l, v, x))
  {
  }

  /** A successful remove turns the viewer's flag off and changes no other
      flag of that list or of the other list. */
  lemma UnlistedAfterRemove(db: Db, list: RecipeList, user: UserId, recipe: RecipeId)
    requires RemoveFromList(db, list, user, recipe).Ok?
    ensures var d := RemoveFromList(db, list, user, recipe).value;
      && !IsListed(d, list, SignedIn(user), recipe)
      && (forall v: Viewer, x: RecipeId | v != SignedIn(user) || x != recipe ::
            IsListed(d, list, v, x) == IsListed(db, list, v, x))
      && (forall l: RecipeList, v: Viewer, x: RecipeId | l != list ::
            IsListed(d, l, v, x) == IsListed(db, l, v, x))
  {
  }

  /** A flag is on exactly when adding the same pair would be refused as a
      repeat: the flag and the toggle agree. */
  lemma ListedIffAddRefused(db: Db, list: RecipeList, user: UserId, recipe: RecipeId)
    requires user in UserIds(db) && recipe in RecipeIds(db)
    ensures IsListed(db, list, SignedIn(user), recipe) <==> AddToList(db, list, user, recipe) == Err(AlreadyAdded)
  {
  }

  // ---------------------------------------------------------------------------
  // Subscription flags.

  /** With foreign keys in place, `obj` is on `user`'s subscription list
      exactly when `user` follows `obj`. */
  lemma ListingIffFollows(db: Db, user: UserId, obj: UserId)
    ensures PairsValid(db) ==>
              ((exists u :: u in Subscriptions(db, user) && u.id == obj) <==> Pair(user, obj) in db.follows)
  {
    if PairsValid(db) {
      SubscriptionsExact(db, user, obj);
    }
  }

  /** UserDetailSerializer.get_is_subscribed: off without a signed-in user,
      and otherwise on exactly when `obj` is on the viewer's subscription
      list. */
  function IsSubscribed(db: Db, viewer: Viewer, obj: UserId): (b: bool)
    ensures !viewer.SignedIn? ==> !b
    ensures viewer.SignedIn? && PairsValid(db) ==>
              (b <==> exists u :: u in Subscriptions(db, viewer.user) && u.id == obj)
  {
    if viewer.SignedIn? then
      ListingIffFollows(db, viewer.user, obj);
      Pair(viewer.user, obj) in db.follows
    else false
  }

  /** ShowFollowSerializer.get_is_subscribed as the code has it: it looks
      for a Follow row whose follower is `obj` and whose author is the
      viewer. So it is on exactly when the viewer is on `obj`'s
      subscription list, the reverse of the user serializer's question. */
  function ShowFollowIsSubscribedAsWritten(db: Db, viewer: Viewer, obj: UserId): (b: bool)
    ensures !viewer.SignedIn? ==> !b
    ensures viewer.SignedIn? && PairsValid(db) ==>
              (b <==> exists u :: u in Subscriptions(db, obj) && u.id == viewer.user)
  {
    if viewer.SignedIn? then
      ListingIffFollows(db, obj, viewer.user);
      Pair(obj, viewer.user) in db.follows
    else false
  }

  /** ShowFollowSerializer.get_is_subscribed as intended: the same question
      as the user serializer asks. */
  function ShowFollowIsSubscribed(db: Db, viewer: Viewer, obj: UserId): bool {
    IsSubscribed(db, viewer, obj)
  }

  /** Without a signed-in user every flag is off, whatever the tables hold. */
  lemma NoViewerNoFlags(db: Db, viewer: Viewer, recipe: RecipeId, obj: UserId)
    requires !viewer.SignedIn?
    ensures !IsListed(db, Favorites, viewer, recipe) && !IsListed(db, Cart, viewer, recipe)
    ensures !IsSubscribed(db, viewer, obj) && !ShowFollowIsSubscribed(db, viewer, obj)
    ensures !ShowFollowIsSubscribedAsWritten(db, viewer, obj)
  {
  }

  /** Following an author turns the user-detail flag on; unfollowing turns
      it off. */
  lemma SubscribedTracksFollow(db: Db, user: UserId, author: UserId)
    ensures AddFollow(db, user, author).Ok? ==> IsSubscribed(AddFollow(db, user, author).value, SignedIn(user), author)
    ensures RemoveFollow(db, user, author).Ok? ==> !IsSubscribed(RemoveFollow(db, user, author).value, SignedIn(user), author)
  {
  }

  /** Every author on the viewer's subscription list is shown as
      subscribed by the intended flag. */
  lemma ListedAuthorsSubscribed(db: Db, viewer: UserId)
    ensures forall u | u in Subscriptions(db, viewer) :: ShowFollowIsSubscribed(db, SignedIn(viewer), u.id)
  {
  }

  /** As written, the flag on a listed author is on only when that author
      follows the viewer back. */
  lemma AsWrittenMeansFollowBack(db: Db, viewer: UserId, u: User)
    requires u in Subscriptions(db, viewer)
    ensures ShowFollowIsSubscribedAsWritten(db, SignedIn(viewer), u.id) <==> Pair(u.id, viewer) in db.follows
  {
  }

  /** A concrete case where the written flag is wrong: user 1 follows user
      2 and not the other way round; user 1's subscription list shows user 2
      with is_subscribed false. */
  lemma AsWrittenCounterexample()
    ensures var db := Db([User(1, "a@x.io", "a", "", ""), User(2, "b@x.io", "b", "", "")],
                         [], [], [], [], [], [Pair(1, 2)], [], []);
      && User(2, "b@x.io", "b", "", "") in Subscriptions(db, 1)
      && !ShowFollowIsSubscribedAsWritten(db, SignedIn(1), 2)
      && ShowFollowIsSubscribed(db, SignedIn(1), 2)
  {
    var db := Db([User(1, "a@x.io", "a", "", ""), User(2, "b@x.io", "b", "", "")],
                 [], [], [], [], [], [Pair(1, 2)], [], []);
    assert User(2, "b@x.io", "b", "", "") == db.users[1];
  }

  // ---------------------------------------------------------------------------
  // Recipe order: Meta.ordering = ('name', 'pub_date').

  /** How the database compares two names: `le(a, b)` when `a` sorts no
      later than `b`. `ORDER BY name` uses the database's default
      collation, which the settings do not fix, so the order is a
      parameter of the model. */
  type Collation = (string, string) -> bool

  /** A collation the database can use: a total order on names (PostgreSQL
      breaks the ties of a deterministic collation by comparing bytes). */
  ghost predicate TotalOrder(le: Collation) {
    && (forall a, b :: le(a, b) || le(b, a))
    && (forall a, b | le(a, b) && le(b, a) :: a == b)
    && (forall a, b, c | le(a, b) && le(b, c) :: le(a, c))
  }

  /** Code-point order, shorter prefix first: the "C" collation. */
  predicate StrLe(a: string, b: string)
    decreases |a|
  {
    |a| == 0 || (|b| > 0 && (a[0] < b[0] || (a[0] == b[0] && StrLe(a[1..], b[1..]))))
  }

  lemma {:induction false} StrLeTotal(a: string, b: string)
    ensures StrLe(a, b) || StrLe(b, a)
    decreases |a|
  {
    if |a| > 0 && |b| > 0 && a[0] == b[0] {
      StrLeTotal(a[1..], b[1..]);
    }
  }

  lemma {:induction false} StrLeAntisymmetric(a: string, b: string)
    requires StrLe(a, b) && StrLe(b, a)
    ensures a == b
    decreases |a|
  {
    if |a| > 0 {
      StrLeAntisymmetric(a[1..], b[1..]);
      assert a == [a[0]] + a[1..] && b == [b[0]] + b[1..];
    }
  }

  lemma {:induction false} StrLeTransitive(a: string, b: string, c: string)
    requires StrLe(a, b) && StrLe(b, c)
    ensures StrLe(a, c)
    decreases |a|
  {
    if |a| > 0 && a[0] == b[0] && b[0] == c[0] {
      StrLeTransitive(a[1..], b[1..], c[1..]);
    }
  }

  /** The "C" collation is one the database can use. */
  lemma CodePointOrder()
    ensures TotalOrder((a, b) => StrLe(a, b))
  {
    var le := (a, b) => StrLe(a, b);
    forall a, b ensures le(a, b) || le(b, a) {
      StrLeTotal(a, b);
    }
    forall a, b | le(a, b) && le(b, a) ensures a == b {
      StrLeAntisymmetric(a, b);
    }
    forall a, b, c | le(a, b) && le(b, c) ensures le(a, c) {
      StrLeTransitive(a, b, c);
    }
  }

  /** Recipe order: by name under the collation, then by pub_date. */
  predicate RecipeLe(le: Collation, x: Recipe, y: Recipe) {
    le(x.name, y.name) && (x.name == y.name ==> x.pubDate <= y.pubDate)
  }

  lemma RecipeLeTotal(le: Collation, x: Recipe, y: Recipe)
    requires TotalOrder(le)
    ensures RecipeLe(le, x, y) || RecipeLe(le, y, x)
  {
    assert le(x.name, y.name) || le(y.name, x.name);
  }

  lemma RecipeLeTransitive(le: Collation, x: Recipe, y: Recipe, z: Recipe)
    requires TotalOrder(le)
    requires RecipeLe(le, x, y) && RecipeLe(le, y, z)
    ensures RecipeLe(le, x, z)
  {
    assert le(x.name, z.name);
    if x.name == z.name {
      assert le(y.name, x.name);
      assert x.name == y.name;
    }
  }

  ghost predicate Sorted(le: Collation, s: seq<Recipe>) {
    forall i, j | 0 <= i < j < |s| :: RecipeLe(le, s[i], s[j])
  }

  /** `x` is no greater than anything in `s`. */
  ghost predicate Below(le: Collation, x: Recipe, s: seq<Recipe>) {
    forall k | 0 <= k < |s| :: RecipeLe(le, x, s[k])
  }

  lemma BelowSorted(le: Collation, x: Recipe, s: seq<Recipe>)
    requires Sorted(le, s) && Below(le, x, s)
    ensures Sorted(le, [x] + s)
  {
    var r := [x] + s;
    forall i, j | 0 <= i < j < |r| ensures RecipeLe(le, r[i], r[j]) {
      if i > 0 {
        assert r[i] == s[i - 1] && r[j] == s[j - 1];
      } else {
        assert r[j] == s[j - 1];
      }
    }
  }

  lemma BelowTransitive(le: Collation, x: Recipe, s: seq<Recipe>)
    requires TotalOrder(le)
    requires Sorted(le, s) && |s| > 0 && RecipeLe(le, x, s[0])
    ensures Below(le, x, s)
  {
    forall k | 0 < k < |s| ensures RecipeLe(le, x, s[k]) {
      RecipeLeTransitive(le, x, s[0], s[k]);
    }
  }

  /** Everything in `t` is an element of `s` or `y`, and `y` and all of `s`
      lie above `x`: so all of `t` does. */
  lemma BelowMultiset(le: Collation, x: Recipe, y: Recipe, s: seq<Recipe>, t: seq<Recipe>)
    requires Below(le, x, s) && RecipeLe(le, x, y)
    requires multiset(t) == multiset(s) + multiset{y}
    ensures Below(le, x, t)
  {
    forall k | 0 <= k < |t| ensures RecipeLe(le, x, t[k]) {
      assert t[k] in multiset(t);
      if t[k] != y {
        assert t[k] in multiset(s);
        var m :| 0 <= m < |s| && s[m] == t[k];
      }
    }
  }

  /** Insertion into a sorted sequence. */
  function Insert(le: Collation, x: Recipe, s: seq<Recipe>): (r: seq<Recipe>)
    requires TotalOrder(le) && Sorted(le, s)
    ensures Sorted(le, r)
    ensures multiset(r) == multiset(s) + multiset{x}
  {
    if |s| == 0 then [x]
    else if RecipeLe(le, x, s[0]) then
      BelowTransitive(le, x, s);
      BelowSorted(le, x, s);
      [x] + s
    else
      var rest := s[1..];
      assert s == [s[0]] + rest;
      assert Sorted(le, rest) by {
        forall i, j | 0 <= i < j < |rest| ensures RecipeLe(le, rest[i], rest[j]) {
          assert rest[i] == s[i + 1] && rest[j] == s[j + 1];
        }
      }
      var tail := Insert(le, x, rest);
      RecipeLeTotal(le, x, s[0]);
      assert Below(le, s[0], rest) by {
        forall k | 0 <= k < |rest| ensures RecipeLe(le, s[0], rest[k]) {
          assert rest[k] == s[k + 1];
        }
      }
      BelowMultiset(le, s[0], x, rest, tail);
      BelowSorted(le, s[0], tail);
      [s[0]] + tail
  }

  /** The recipes in (name, pub_date) order: sorted, and a permutation of
      the input. */
  function Sort(le: Collation, s: seq<Recipe>): (r: seq<Recipe>)
    requires TotalOrder(le)
    ensures Sorted(le, r)
    ensures multiset(r) == multiset(s)
  {
    if |s| == 0 then []
    else
      assert s == [s[0]] + s[1..];
      Insert(le, s[0], Sort(le, s[1..]))
  }

  // ---------------------------------------------------------------------------
  // Subscription cards.

  /** `author.recipes`: the author's recipes, in table order. */
  function AuthorRecipes(db: Db, author: UserId): (r: seq<Recipe>)
    ensures forall x :: x in r <==> x in db.recipes && x.author == author
  {
    Filter(db.recipes, (x: Recipe) => x.author == author)
  }

  function Min(a: int, b: int): int {
    if a <= b then a else b
  }

  /** get_recipes: the author's recipes in model order, cut at
      RECIPES_LIMIT. The cut keeps the first ones: every recipe shown comes
      no later than every recipe left out, and nothing is left out when the
      author has at most RECIPES_LIMIT of them. */
  function ShownRecipes(le: Collation, db: Db, author: UserId): (r: seq<Recipe>)
    requires TotalOrder(le)
    ensures |r| == Min(RecipesLimit, |AuthorRecipes(db, author)|)
    ensures Sorted(le, r)
    ensures multiset(r) <= multiset(AuthorRecipes(db, author))
    ensures forall x, y | x in r && y in AuthorRecipes(db, author) && y !in r :: RecipeLe(le, x, y)
    ensures |AuthorRecipes(db, author)| <= RecipesLimit ==> multiset(r) == multiset(AuthorRecipes(db, author))
  {
    var all := Sort(le, AuthorRecipes(db, author));
    PrefixFacts(le, all, AuthorRecipes(db, author), Min(RecipesLimit, |all|));
    all[..Min(RecipesLimit, |all|)]
  }

  /** A prefix of a sorted permutation of `src`: part of `src`, all of it
      when the prefix is the whole, and below everything of `src` it leaves
      out. */
  lemma PrefixFacts(le: Collation, all: seq<Recipe>, src: seq<Recipe>, k: nat)
    requires Sorted(le, all) && multiset(all) == multiset(src) && k <= |all|
    ensures |src| == |all|
    ensures Sorted(le, all[..k])
    ensures multiset(all[..k]) <= multiset(src)
    ensures k == |all| ==> multiset(all[..k]) == multiset(src)
    ensures forall x, y | x in all[..k] && y in src && y !in all[..k] :: RecipeLe(le, x, y)
  {
    assert |all| == |multiset(all)| == |multiset(src)| == |src|;
    assert all == all[..k] + all[k..];
    forall x, y | x in all[..k] && y in src && y !in all[..k] ensures RecipeLe(le, x, y) {
      assert y in multiset(src);
      assert y in all;
      var i :| 0 <= i < k && all[..k][i] == x;
      var j :| 0 <= j < |all| && all[j] == y;
      assert all[i] == x;
    }
  }

  /** One entry of the subscription list (ShowFollowSerializer). */
  datatype FollowCard = FollowCard(user: User, isSubscribed: bool, recipes: seq<Recipe>, recipesCount: nat)

  /** The card for `u` with the given is_subscribed value: recipes_count
      counts every recipe of the author, and the recipes shown are the
      first RECIPES_LIMIT of them in model order. */
  function Card(le: Collation, db: Db, u: User, isSubscribed: bool): (r: FollowCard)
    requires TotalOrder(le)
    ensures r.user == u && r.isSubscribed == isSubscribed
    ensures r.recipesCount == |AuthorRecipes(db, u.id)|
    ensures r.recipes == ShownRecipes(le, db, u.id)
    ensures |r.recipes| == Min(RecipesLimit, r.recipesCount)
  {
    FollowCard(u, isSubscribed, ShownRecipes(le, db, u.id), |AuthorRecipes(db, u.id)|)
  }

  /** ListFollowViewSet as the code has it: one card per followed author,
      in table order. Each card counts all of the author's recipes and
      shows the capped, ordered prefix of them. Its is_subscribed is line
      332's reversed check: on only when the author follows the viewer
      back. */
  function SubscriptionCards(le: Collation, db: Db, viewer: UserId): (r: seq<FollowCard>)
    requires TotalOrder(le)
    ensures |r| == |Subscriptions(db, viewer)|
    ensures forall i | 0 <= i < |r| ::
      && r[i].user == Subscriptions(db, viewer)[i]
      && (r[i].isSubscribed <==> Pair(r[i].user.id, viewer) in db.follows)
      && r[i].recipesCount == |AuthorRecipes(db, r[i].user.id)|
      && r[i].recipes == ShownRecipes(le, db, r[i].user.id)
      && |r[i].recipes| == Min(RecipesLimit, r[i].recipesCount)
  {
    var subs := Subscriptions(db, viewer);
    seq(|subs|, i requires 0 <= i < |subs| =>
      Card(le, db, subs[i], ShowFollowIsSubscribedAsWritten(db, SignedIn(viewer), subs[i].id)))
  }

  /** The subscription list with the intended flag: the same cards, each
      marked subscribed. */
  function SubscriptionCardsCorrected(le: Collation, db: Db, viewer: UserId): (r: seq<FollowCard>)
    requires TotalOrder(le)
    ensures |r| == |SubscriptionCards(le, db, viewer)|
    ensures forall i | 0 <= i < |r| :: r[i] == SubscriptionCards(le, db, viewer)[i].(isSubscribed := true)
  {
    var subs := Subscriptions(db, viewer);
    ListedAuthorsSubscribed(db, viewer);
    seq(|subs|, i requires 0 <= i < |subs| =>
      assert subs[i] in subs;
      Card(le, db, subs[i], ShowFollowIsSubscribed(db, SignedIn(viewer), subs[i].id)))
  }

  /** The cards on the one-way follow of AsWrittenCounterexample, under any
      collation: user 1's list shows user 2 unsubscribed as written,
      subscribed as intended. */
  lemma CardsCounterexample(le: Collation)
    requires TotalOrder(le)
    ensures var db := Db([User(1, "a@x.io", "a", "", ""), User(2, "b@x.io", "b", "", "")],
                         [], [], [], [], [], [Pair(1, 2)], [], []);
      && |SubscriptionCards(le, db, 1)| == 1
      && SubscriptionCards(le, db, 1)[0].user.id == 2
      && !SubscriptionCards(le, db, 1)[0].isSubscribed
      && SubscriptionCardsCorrected(le, db, 1)[0].isSubscribed
  {
    var db := Db([User(1, "a@x.io", "a", "", ""), User(2, "b@x.io", "b", "", "")],
                 [], [], [], [], [], [Pair(1, 2)], [], []);
    var subs := Subscriptions(db, 1);
    assert db.users[1] in subs;
    assert forall u | u in subs :: u == db.users[1];
    assert subs[0] == db.users[1];
  }

  /** Under any collation, a recipe that comes strictly first among its
      author's recipes is always on the card. */
  lemma FirstRecipeShown(le: Collation, db: Db, author: UserId, x: Recipe)
    requires TotalOrder(le)
    requires x in AuthorRecipes(db, author)
    requires forall y | y in AuthorRecipes(db, author) && y != x :: !RecipeLe(le, y, x)
    ensures x in ShownRecipes(le, db, author)
  {
    var r := ShownRecipes(le, db, author);
    if x !in r {
      assert |r| > 0;
      assert r[0] in multiset(AuthorRecipes(db, author));
    }
  }

  /** Creating a recipe adds one to its author's recipes_count. */
  lemma CountAfterCreate(db: Db, author: UserId, input: Composition.RecipeInput, now: int)
    requires Composition.CreateRecipe(db, author, input, now).Ok?
    ensures |AuthorRecipes(Composition.CreateRecipe(db, author, input, now).value.0, author)|
         == |AuthorRecipes(db, author)| + 1
  {
    var d := Composition.CreateRecipe(db, author, input, now).value.0;
    FilterAppend(db.recipes, d.recipes[|d.recipes| - 1], (x: Recipe) => x.author == author);
    assert d.recipes == db.recipes + [d.recipes[|d.recipes| - 1]];
  }
}

=== FILE: results.dfy ===
/** Outcomes shared by every operation of the model: a value, or one of the
    errors the serializers and views raise. HTTP status codes are not modelled;
    each error names the condition that raised it. */
module Results {

  datatype Option<+T> = None | Some(value: T)

  datatype Error =
    | UnknownReference     // a primary-key field names a row that does not exist
    | NotFound             // get_object_or_404, or Model.objects.get finding nothing
    | AlreadyAdded         // the (user, recipe) favourite or cart row already exists
    | SubscriptionExists   // follow validation: self-follow or existing subscription
    | InvalidCookingTime   // cooking_time <= 0
    | NegativeAmount       // an ingredient amount < 0
    | MissingCredentials   // email or password absent or empty
    | InvalidCredentials   // authenticate found no user
    | DuplicateEmail       // unique constraint on User.email
    | DuplicateUsername    // unique constraint on User.username
    | InvalidEmail         // blank email
    | InvalidUsername      // blank username, or longer than the column allows
    | ImageRequired        // the image field is missing on create
    | InvalidText          // recipe name or text blank after trimming, or too long

  datatype Result<+T> = Ok(value: T) | Err(error: Error)
}

=== FILE: schema.dfy ===
/** The relational schema of recipes/models.py and users/models.py as
    immutable tables. Every table is a sequence of rows in insertion order.
    `Wellformed` collects the constraints every reachable state satisfies:
    those the database enforces (primary keys, unique constraints, foreign
    keys) and those the model fields' validation guarantees for every row
    written through the application (non-blank email and username, the
    username width, cooking_time >= 1). The cascade deletes of the
    `on_delete=CASCADE` foreign keys are modelled as functions. */
module Schema {
  import opened Results
  import opened Seqs

  type UserId = int
  type RecipeId = int
  type IngredientId = int
  type TagId = int

  /** Width of the `username` column. */
  const UsernameMaxLength := 20
  /** Bound of the MinValueValidator on `Recipe.cooking_time`. */
  const MinCookingTime := 1

  datatype User = User(id: UserId, email: string, username: string, firstName: string, lastName: string)

  /** Ingredient reference row; neither `name` nor `(name, unit)` is unique. */
  datatype Ingredient = Ingredient(id: IngredientId, name: string, unit: string)

  datatype Tag = Tag(id: TagId, name: string, color: string, slug: string)

  /** `pubDate` is the auto_now_add timestamp, as an abstract clock value. */
  datatype Recipe = Recipe(id: RecipeId, author: UserId, name: string, image: string,
                           text: string, cookingTime: int, pubDate: int)

  /** A row of the RecipeIngredient join table; the column is a
      PositiveSmallIntegerField, hence `nat`. No uniqueness on
      `(recipe, ingredient)`. */
  datatype RecipeIngredient = RecipeIngredient(recipe: RecipeId, ingredient: IngredientId, amount: nat)

  /** A row of the ReceiptTag join table. */
  datatype RecipeTag = RecipeTag(recipe: RecipeId, tag: TagId)

  /** A row of Follow (`user` follows author `target`), Favorite or
      ShoppingCart (`user` has recipe `target`). */
  datatype Pair = Pair(user: UserId, target: int)

  datatype Db = Db(
    users: seq<User>,
    ingredients: seq<Ingredient>,
    tags: seq<Tag>,
    recipes: seq<Recipe>,
    recipeIngredients: seq<RecipeIngredient>,
    recipeTags: seq<RecipeTag>,
    follows: seq<Pair>,
    favorites: seq<Pair>,
    carts: seq<Pair>)

  function UserKey(u: User): UserId { u.id }
  function EmailOf(u: User): string { u.email }
  function UsernameOf(u: User): string { u.username }
  function IngredientKey(i: Ingredient): IngredientId { i.id }
  function TagKey(t: Tag): TagId { t.id }
  function RecipeKey(r: Recipe): RecipeId { r.id }

  function UserIds(db: Db): set<UserId> { set u | u in db.users :: u.id }
  function RecipeIds(db: Db): set<RecipeId> { set r | r in db.recipes :: r.id }
  function IngredientIds(db: Db): set<IngredientId> { set i | i in db.ingredients :: i.id }
  function TagIds(db: Db): set<TagId> { set t | t in db.tags :: t.id }

  // ---------------------------------------------------------------------------
  // Constraints.

  /** Primary keys. */
  ghost predicate KeysUnique(db: Db) {
    && UniqueBy(db.users, UserKey)
    && UniqueBy(db.ingredients, IngredientKey)
    && UniqueBy(db.tags, TagKey)
    && UniqueBy(db.recipes, RecipeKey)
  }

  /** `username` is non-blank and fits its column. */
  predicate ValidUsername(name: string) {
    0 < |name| <= UsernameMaxLength
  }

  /** User.email and User.username are unique and non-blank. */
  ghost predicate UsersValid(db: Db) {
    && UniqueBy(db.users, EmailOf)
    && UniqueBy(db.users, UsernameOf)
    && forall u | u in db.users :: ValidUsername(u.username) && u.email != ""
  }

  /** Every recipe has an existing author, and cooking_time >= 1 (the
      column itself only refuses negative values; validation refuses 0). */
  ghost predicate RecipesValid(db: Db) {
    forall r | r in db.recipes :: r.author in UserIds(db) && r.cookingTime >= MinCookingTime
  }

  /** Foreign keys of the two join tables. */
  ghost predicate JoinRowsValid(db: Db) {
    && (forall x | x in db.recipeIngredients :: x.recipe in RecipeIds(db) && x.ingredient in IngredientIds(db))
    && (forall x | x in db.recipeTags :: x.recipe in RecipeIds(db) && x.tag in TagIds(db))
  }

  /** unique_follow, unique_favorite, unique_shopping_cart, and the foreign
      keys of the three pair tables. */
  ghost predicate PairsValid(db: Db) {
    && NoDuplicates(db.follows)
    && NoDuplicates(db.favorites)
    && NoDuplicates(db.carts)
    && (forall p | p in db.follows :: p.user in UserIds(db) && p.target in UserIds(db))
    && (forall p | p in db.favorites :: p.user in UserIds(db) && p.target in RecipeIds(db))
    && (forall p | p in db.carts :: p.user in UserIds(db) && p.target in RecipeIds(db))
  }

  ghost predicate Wellformed(db: Db) {
    && KeysUnique(db)
    && UsersValid(db)
    && RecipesValid(db)
    && JoinRowsValid(db)
    && PairsValid(db)
  }

  // ---------------------------------------------------------------------------
  // Lookups.

  /** The first row of `xs` whose key is `k`, or None. */
  function FindBy<T, K(==)>(xs: seq<T>, key: T -> K, k: K): (r: Option<T>)
    ensures r.Some? <==> exists x :: x in xs && key(x) == k
    ensures r.Some? ==> r.value in xs && key(r.value) == k
  {
    if |xs| == 0 then None
    else if key(xs[0]) == k then Some(xs[0])
    else FindBy(xs[1..], key, k)
  }

  /** `Recipe.objects.get(id=id)`, or None when there is no such row. */
  function FindRecipe(db: Db, id: RecipeId): (r: Option<Recipe>)
    ensures r.Some? <==> id in RecipeIds(db)
    ensures r.Some? ==> r.value in db.recipes && r.value.id == id
  {
    FindBy(db.recipes, RecipeKey, id)
  }

  /** `Ingredient.objects.get(id=id)`, or None when there is no such row. */
  function FindIngredient(db: Db, id: IngredientId): (r: Option<Ingredient>)
    ensures r.Some? <==> id in IngredientIds(db)
    ensures r.Some? ==> r.value in db.ingredients && r.value.id == id
  {
    FindBy(db.ingredients, IngredientKey, id)
  }

  /** With unique primary keys the row found is the only one with that id. */
  lemma FindRecipeUnique(db: Db, id: RecipeId, r: Recipe)
    requires KeysUnique(db)
    requires r in db.recipes && r.id == id
    ensures FindRecipe(db, id) == Some(r)
  {
    var f := FindRecipe(db, id).value;
    var i :| 0 <= i < |db.recipes| && db.recipes[i] == r;
    var j :| 0 <= j < |db.recipes| && db.recipes[j] == f;
    assert RecipeKey(db.recipes[i]) == RecipeKey(db.recipes[j]);
  }

  /** `RecipeIngredient.objects.filter(recipe=id)`, in table order. */
  function IngredientRowsOf(db: Db, id: RecipeId): (r: seq<RecipeIngredient>)
    ensures forall x :: x in r <==> x in db.recipeIngredients && x.recipe == id
  {
    Filter(db.recipeIngredients, (x: RecipeIngredient) => x.recipe == id)
  }

  /** `ReceiptTag.objects.filter(recipe=id)`, in table order. */
  function TagRowsOf(db: Db, id: RecipeId): (r: seq<RecipeTag>)
    ensures forall x :: x in r <==> x in db.recipeTags && x.recipe == id
  {
    Filter(db.recipeTags, (x: RecipeTag) => x.recipe == id)
  }

  // ---------------------------------------------------------------------------
  // Cascade deletes.

  /** `recipe.delete()`: the recipe goes, and with it (on_delete=CASCADE) its
      RecipeIngredient, ReceiptTag, Favorite and ShoppingCart rows. */
  function DeleteRecipe(db: Db, id: RecipeId): (d: Db)
    ensures d.users == db.users && d.ingredients == db.ingredients && d.tags == db.tags
    ensures d.follows == db.follows
    ensures forall r :: r in d.recipes <==> r in db.recipes && r.id != id
    ensures forall x :: x in d.recipeIngredients <==> x in db.recipeIngredients && x.recipe != id
    ensures forall x :: x in d.recipeTags <==> x in db.recipeTags && x.recipe != id
    ensures forall p :: p in d.favorites <==> p in db.favorites && p.target != id
    ensures forall p :: p in d.carts <==> p in db.carts && p.target != id
    ensures forall x :: multiset(d.recipeIngredients)[x] == if x.recipe == id then 0 else multiset(db.recipeIngredients)[x]
    ensures forall x :: multiset(d.recipeTags)[x] == if x.recipe == id then 0 else multiset(db.recipeTags)[x]
  {
    FilterCount(db.recipeIngredients, (x: RecipeIngredient) => x.recipe != id);
    FilterCount(db.recipeTags, (x: RecipeTag) => x.recipe != id);
    db.(recipes := Filter(db.recipes, (r: Recipe) => r.id != id),
        recipeIngredients := Filter(db.recipeIngredients, (x: RecipeIngredient) => x.recipe != id),
        recipeTags := Filter(db.recipeTags, (x: RecipeTag) => x.recipe != id),
        favorites := Filter(db.favorites, (p: Pair) => p.target != id),
        carts := Filter(db.carts, (p: Pair) => p.target != id))
  }

  /** Every recipe other than `id` survives its deletion. */
  lemma DeleteRecipeIds(db: Db, id: RecipeId)
    ensures RecipeIds(DeleteRecipe(db, id)) == RecipeIds(db) - {id}
  {
    var d := DeleteRecipe(db, id);
    forall x | x in RecipeIds(db) && x != id ensures x in RecipeIds(d) {
      var r :| r in db.recipes && r.id == x;
      assert r in d.recipes;
    }
  }

  lemma DeleteRecipeWellformed(db: Db, id: RecipeId)
    requires Wellformed(db)
    ensures Wellformed(DeleteRecipe(db, id))
    ensures id !in RecipeIds(DeleteRecipe(db, id))
  {
    DeleteRecipeIds(db, id);
    DeleteRecipeKeys(db, id);
    DeleteRecipePairs(db, id);
  }

  lemma DeleteRecipeKeys(db: Db, id: RecipeId)
    requires Wellformed(db)
    ensures KeysUnique(DeleteRecipe(db, id))
  {
    FilterUniqueBy(db.recipes, (r: Recipe) => r.id != id, RecipeKey);
  }

  lemma DeleteRecipePairs(db: Db, id: RecipeId)
    requires Wellformed(db)
    ensures PairsValid(DeleteRecipe(db, id))
  {
    DeleteRecipeIds(db, id);
    FilterNoDuplicates(db.favorites, (p: Pair) => p.target != id);
    FilterNoDuplicates(db.carts, (p: Pair) => p.target != id);
  }

  /** The ids of the recipes written by `uid`. */
  function RecipesOf(db: Db, uid: UserId): set<RecipeId> {
    set r | r in db.recipes && r.author == uid :: r.id
  }

  /** `user.delete()`: the user goes, and with them their recipes (and each
      recipe's dependent rows), their Follow rows in either role, and their
      Favorite and ShoppingCart rows. */
  function DeleteUser(db: Db, uid: UserId): (d: Db)
    ensures d.ingredients == db.ingredients && d.tags == db.tags
    ensures forall u :: u in d.users <==> u in db.users && u.id != uid
    ensures forall r :: r in d.recipes <==> r in db.recipes && r.author != uid
    ensures forall x :: x in d.recipeIngredients <==> x in db.recipeIngredients && x.recipe !in RecipesOf(db, uid)
    ensures forall x :: x in d.recipeTags <==> x in db.recipeTags && x.recipe !in RecipesOf(db, uid)
    ensures forall p :: p in d.follows <==> p in db.follows && p.user != uid && p.target != uid
    ensures forall p :: p in d.favorites <==> p in db.favorites && p.user != uid && p.target !in RecipesOf(db, uid)
    ensures forall p :: p in d.carts <==> p in db.carts && p.user != uid && p.target !in RecipesOf(db, uid)
    ensures forall x :: multiset(d.recipeIngredients)[x]
                        == if x.recipe in RecipesOf(db, uid) then 0 else multiset(db.recipeIngredients)[x]
    ensures forall x :: multiset(d.recipeTags)[x]
                        == if x.recipe in RecipesOf(db, uid) then 0 else multiset(db.recipeTags)[x]
  {
    var gone := RecipesOf(db, uid);
    FilterCount(db.recipeIngredients, (x: RecipeIngredient) => x.recipe !in gone);
    FilterCount(db.recipeTags, (x: RecipeTag) => x.recipe !in gone);
    Db(Filter(db.users, (u: User) => u.id != uid),
       db.ingredients,
       db.tags,
       Filter(db.recipes, (r: Recipe) => r.author != uid),
       Filter(db.recipeIngredients, (x: RecipeIngredient) => x.recipe !in gone),
       Filter(db.recipeTags, (x: RecipeTag) => x.recipe !in gone),
       Filter(db.follows, (p: Pair) => p.user != uid && p.target != uid),
       Filter(db.favorites, (p: Pair) => p.user != uid && p.target !in gone),
       Filter(db.carts, (p: Pair) => p.user != uid && p.target !in gone))
  }

  lemma DeleteUserWellformed(db: Db, uid: UserId)
    requires Wellformed(db)
    ensures Wellformed(DeleteUser(db, uid))
    ensures uid !in UserIds(DeleteUser(db, uid))
  {
    DeleteUserKeys(db, uid);
    DeleteUserRecipes(db, uid);
    DeleteUserJoinRows(db, uid);
    DeleteUserPairs(db, uid);
  }

  lemma DeleteUserKeys(db: Db, uid: UserId)
    requires Wellformed(db)
    ensures KeysUnique(DeleteUser(db, uid)) && UsersValid(DeleteUser(db, uid))
  {
    FilterUniqueBy(db.users, (u: User) => u.id != uid, UserKey);
    FilterUniqueBy(db.users, (u: User) => u.id != uid, EmailOf);
    FilterUniqueBy(db.users, (u: User) => u.id != uid, UsernameOf);
    FilterUniqueBy(db.recipes, (r: Recipe) => r.author != uid, RecipeKey);
  }

  /** Every user other than `uid` survives. */
  lemma DeleteUserKeepsOthers(db: Db, uid: UserId)
    ensures forall x | x in UserIds(db) && x != uid :: x in UserIds(DeleteUser(db, uid))
    ensures uid !in UserIds(DeleteUser(db, uid))
  {
    var d := DeleteUser(db, uid);
    forall x | x in UserIds(db) && x != uid ensures x in UserIds(d) {
      var u :| u in db.users && u.id == x;
      assert u in d.users;
    }
  }

  /** Every recipe not written by `uid` survives. */
  lemma DeleteUserKeepsOtherRecipes(db: Db, uid: UserId)
    ensures forall x | x in RecipeIds(db) && x !in RecipesOf(db, uid) :: x in RecipeIds(DeleteUser(db, uid))
  {
    var d := DeleteUser(db, uid);
    forall x | x in RecipeIds(db) && x !in RecipesOf(db, uid) ensures x in RecipeIds(d) {
      var r :| r in db.recipes && r.id == x;
      assert r in d.recipes;
    }
  }

  lemma DeleteUserRecipes(db: Db, uid: UserId)
    requires Wellformed(db)
    ensures RecipesValid(DeleteUser(db, uid))
  {
    DeleteUserKeepsOthers(db, uid);
  }

  lemma DeleteUserJoinRows(db: Db, uid: UserId)
    requires Wellformed(db)
    ensures JoinRowsValid(DeleteUser(db, uid))
  {
    DeleteUserKeepsOtherRecipes(db, uid);
  }

  lemma DeleteUserPairs(db: Db, uid: UserId)
    requires Wellformed(db)
    ensures PairsValid(DeleteUser(db, uid))
  {
    var gone := RecipesOf(db, uid);
    FilterNoDuplicates(db.follows, (p: Pair) => p.user != uid && p.target != uid);
    FilterNoDuplicates(db.favorites, (p: Pair) => p.user != uid && p.target !in gone);
    FilterNoDuplicates(db.carts, (p: Pair) => p.user != uid && p.target !in gone);
    DeleteUserKeepsOthers(db, uid);
    DeleteUserKeepsOtherRecipes(db, uid);
  }

  // ---------------------------------------------------------------------------
  // Inserting a user.

  /** Insert a User row, enforcing what the table enforces: non-blank email,
      non-blank username of at most 20 characters, unique email and unique
      username. The primary key is the next auto-increment value. */
  function AddUser(db: Db, email: string, username: string, firstName: string, lastName: string): (r: Result<Db>)
    ensures r.Err? <==>
              || email == "" || !ValidUsername(username)
              || (exists u :: u in db.users && u.email == email)
              || (exists u :: u in db.users && u.username == username)
    ensures r.Ok? ==> (exists id :: id !in UserIds(db) &&
                        r.value == db.(users := db.users + [User(id, email, username, firstName, lastName)]))
  {
    if email == "" then Err(InvalidEmail)
    else if !ValidUsername(username) then Err(InvalidUsername)
    else if exists u :: u in db.users && u.email == email then Err(DuplicateEmail)
    else if exists u :: u in db.users && u.username == username then Err(DuplicateUsername)
    else
      var id := NextKey(db.users, UserKey);
      assert id !in UserIds(db);
      Ok(db.(users := db.users + [User(id, email, username, firstName, lastName)]))
  }

  /** Appending a row whose key is new keeps the keys unique. */
  lemma AppendUniqueBy<T, K>(s: seq<T>, x: T, key: T -> K)
    requires UniqueBy(s, key)
    requires forall y | y in s :: key(y) != key(x)
    ensures UniqueBy(s + [x], key)
  {
    var t := s + [x];
    forall i, j | 0 <= i < j < |t| ensures key(t[i]) != key(t[j]) {
      if j == |s| { assert t[i] in s; } else { assert t[i] == s[i] && t[j] == s[j]; }
    }
  }

  lemma AddUserWellformed(db: Db, email: string, username: string, firstName: string, lastName: string)
    requires Wellformed(db)
    requires AddUser(db, email, username, firstName, lastName).Ok?
    ensures Wellformed(AddUser(db, email, username, firstName, lastName).value)
  {
    var d := AddUser(db, email, username, firstName, lastName).value;
    var id :| id !in UserIds(db) && d == db.(users := db.users + [User(id, email, username, firstName, lastName)]);
    var u := User(id, email, username, firstName, lastName);
    AppendUniqueBy(db.users, u, UserKey);
    AppendUniqueBy(db.users, u, EmailOf);
    AppendUniqueBy(db.users, u, UsernameOf);
    assert UserIds(db) <= UserIds(d);
  }
}

=== FILE: seqs.dfy ===
/** Sequence helpers used for the tables of the model: order-preserving
    filtering (the ORM's `filter(...).delete()` leaves the remaining rows in
    place), and uniqueness of rows or of a key. */
module Seqs {

  /** The elements of `s` satisfying `keep`, in their original order. */
  function Filter<T(!new)>(s: seq<T>, keep: T -> bool): (r: seq<T>)
    ensures |r| <= |s|
    ensures forall x :: x in r <==> x in s && keep(x)
  {
    if |s| == 0 then []
    else
      var rest := Filter(s[..|s| - 1], keep);
      if keep(s[|s| - 1]) then rest + [s[|s| - 1]] else rest
  }

  /** No element occurs twice. */
  ghost predicate NoDuplicates<T>(s: seq<T>) {
    forall i, j | 0 <= i < j < |s| :: s[i] != s[j]
  }

  /** No two elements share a key. */
  ghost predicate UniqueBy<T, K>(s: seq<T>, key: T -> K) {
    forall i, j | 0 <= i < j < |s| :: key(s[i]) != key(s[j])
  }

  /** Filtering keeps every occurrence of a kept element and none of the
      others: it never merges duplicate rows. */
  lemma {:induction false} FilterCount<T(!new)>(s: seq<T>, keep: T -> bool)
    ensures forall x :: multiset(Filter(s, keep))[x] == if keep(x) then multiset(s)[x] else 0
  {
    if |s| > 0 {
      var init := s[..|s| - 1];
      var last := s[|s| - 1];
      FilterCount(init, keep);
      assert s == init + [last];
      assert multiset(s) == multiset(init) + multiset{last};
    }
  }

  lemma FilterAppend<T(!new)>(s: seq<T>, x: T, keep: T -> bool)
    ensures Filter(s + [x], keep) == if keep(x) then Filter(s, keep) + [x] else Filter(s, keep)
  {
    assert (s + [x])[..|s|] == s;
  }

  /** Keeping every element changes nothing. */
  lemma {:induction false} FilterKeepsAll<T(!new)>(s: seq<T>, keep: T -> bool)
    requires forall x | x in s :: keep(x)
    ensures Filter(s, keep) == s
  {
    if |s| > 0 {
      var p := s[..|s| - 1];
      assert s == p + [s[|s| - 1]];
      FilterKeepsAll(p, keep);
    }
  }

  lemma {:induction false} FilterNoDuplicates<T(!new)>(s: seq<T>, keep: T -> bool)
    requires NoDuplicates(s)
    ensures NoDuplicates(Filter(s, keep))
  {
    if |s| > 0 {
      var p := s[..|s| - 1];
      var last := s[|s| - 1];
      FilterNoDuplicates(p, keep);
      assert last !in p by {
        forall k | 0 <= k < |p| ensures p[k] != last {
          assert s[k] == p[k];
        }
      }
    }
  }

  lemma {:induction false} FilterUniqueBy<T(!new), K>(s: seq<T>, keep: T -> bool, key: T -> K)
    requires UniqueBy(s, key)
    ensures UniqueBy(Filter(s, keep), key)
  {
    if |s| > 0 {
      var p := s[..|s| - 1];
      var last := s[|s| - 1];
      FilterUniqueBy(p, keep, key);
      var rest := Filter(p, keep);
      if keep(last) {
        forall y | y in rest ensures key(y) != key(last) {
          var k :| 0 <= k < |p| && p[k] == y;
          assert s[k] == y;
        }
        var r := rest + [last];
        forall i, j | 0 <= i < j < |r| ensures key(r[i]) != key(r[j]) {
          if j == |rest| {
            assert r[i] in rest;
          } else {
            assert r[i] == rest[i] && r[j] == rest[j];
          }
        }
      }
    }
  }

  /** Filtering out the one occurrence of a unique element shortens the
      sequence by exactly one. */
  lemma {:induction false} FilterDropsOne<T(!new)>(s: seq<T>, keep: T -> bool, x: T)
    requires NoDuplicates(s)
    requires x in s
    requires forall y :: keep(y) <==> y != x
    ensures |Filter(s, keep)| == |s| - 1
  {
    var p := s[..|s| - 1];
    var last := s[|s| - 1];
    assert s == p + [last];
    assert NoDuplicates(p) by {
      forall i, j | 0 <= i < j < |p| ensures p[i] != p[j] {
        assert p[i] == s[i] && p[j] == s[j];
      }
    }
    if last == x {
      assert x !in p by {
        forall k | 0 <= k < |p| ensures p[k] != x {
          assert s[k] == p[k];
        }
      }
      FilterKeepsAll(p, keep);
    } else {
      FilterDropsOne(p, keep, x);
    }
  }

  /** Filtering an appended sequence splits over the two parts. */
  lemma {:induction false} FilterConcat<T(!new)>(a: seq<T>, b: seq<T>, keep: T -> bool)
    ensures Filter(a + b, keep) == Filter(a, keep) + Filter(b, keep)
  {
    if |b| == 0 {
      assert a + b == a;
    } else {
      var p := b[..|b| - 1];
      var last := b[|b| - 1];
      assert a + b == (a + p) + [last];
      assert b == p + [last];
      FilterConcat(a, p, keep);
      FilterAppend(a + p, last, keep);
      FilterAppend(p, last, keep);
    }
  }

  /** Keeping no element yields the empty sequence. */
  lemma {:induction false} FilterNone<T(!new)>(s: seq<T>, keep: T -> bool)
    requires forall x | x in s :: !keep(x)
    ensures Filter(s, keep) == []
  {
    if |s| > 0 {
      FilterNone(s[..|s| - 1], keep);
    }
  }

  /** Replacing the elements `mine` selects: after dropping them and
      appending `added` (all of them selected), the selected elements are
      exactly `added` and the others are as before. */
  lemma FilterReplace<T(!new)>(s: seq<T>, added: seq<T>, keep: T -> bool, mine: T -> bool)
    requires forall x :: keep(x) == !mine(x)
    requires forall x | x in added :: mine(x)
    ensures Filter(Filter(s, keep) + added, mine) == added
    ensures forall x | !mine(x) :: x in Filter(s, keep) + added <==> x in s
  {
    FilterConcat(Filter(s, keep), added, mine);
    FilterNone(Filter(s, keep), mine);
    FilterKeepsAll(added, mine);
  }

  /** A key larger than every key in `s`, so no current row has it. The
      database's id sequence also never hands out the id of a deleted row;
      this choice may. */
  function NextKey<T>(s: seq<T>, key: T -> int): (r: int)
    ensures forall i | 0 <= i < |s| :: key(s[i]) < r
  {
    if |s| == 0 then 1
    else
      var k := NextKey(s[1..], key);
      if key(s[0]) < k then k else key(s[0]) + 1
  }
}

=== FILE: shopping_list.dfy ===
/** The shopping-list download (DownloadShoppingCart.get in recipes/views.py):
    every RecipeIngredient row of every recipe in the user's cart is folded
    into a dict keyed by ingredient NAME, summing amounts and keeping the unit
    of the first row seen; the dict is then rendered one line per key in
    insertion order. */
module ShoppingList {
  import opened Results
  import opened Seqs
  import opened Text
  import opened Schema

  /** A RecipeIngredient row with its ingredient's name and unit joined in. */
  datatype Row = Row(name: string, amount: nat, unit: string)

  /** The value `buying_list` holds for one name. */
  datatype Bucket = Bucket(unit: string, amount: nat)

  /** `buying_list`: a dict, i.e. its entries plus the order in which its keys
      were first inserted. */
  datatype Acc = Acc(order: seq<string>, buckets: map<string, Bucket>)

  /** One line of the download before rendering: a name, its summed amount
      and its unit, the same shape as a row. */
  type Line = Row

  // ---------------------------------------------------------------------------
  // Reference definitions over a sequence of rows.

  /** The ingredient names occurring in `rows`. */
  function Names(rows: seq<Row>): (r: set<string>)
    ensures forall i | 0 <= i < |rows| :: rows[i].name in r
  {
    if |rows| == 0 then {}
    else Names(rows[..|rows| - 1]) + {rows[|rows| - 1].name}
  }

  /** The sum of `amount` over the rows named `name`. */
  function Total(rows: seq<Row>, name: string): nat {
    if |rows| == 0 then 0
    else
      var last := rows[|rows| - 1];
      Total(rows[..|rows| - 1], name) + (if last.name == name then last.amount else 0)
  }

  /** Index of the first row named `name`. */
  function FirstIndex(rows: seq<Row>, name: string): (k: nat)
    requires name in Names(rows)
    ensures k < |rows| && rows[k].name == name
    ensures forall i | 0 <= i < k :: rows[i].name != name
  {
    var p := rows[..|rows| - 1];
    if name in Names(p) then FirstIndex(p, name) else |rows| - 1
  }

  lemma NamesSnoc(rows: seq<Row>, x: Row)
    ensures Names(rows + [x]) == Names(rows) + {x.name}
    ensures forall n :: Total(rows + [x], n) == Total(rows, n) + (if x.name == n then x.amount else 0)
    ensures forall n | n in Names(rows) :: FirstIndex(rows + [x], n) == FirstIndex(rows, n)
    ensures x.name !in Names(rows) ==> FirstIndex(rows + [x], x.name) == |rows|
  {
    assert (rows + [x])[..|rows|] == rows;
  }

  // ---------------------------------------------------------------------------
  // The fold.

  const EmptyAcc := Acc([], map[])

  /** One iteration of the inner loop: a new name is inserted with this row's
      unit and amount; a known name only has its amount increased. */
  function Step(acc: Acc, row: Row): Acc {
    if row.name !in acc.buckets then
      Acc(acc.order + [row.name], acc.buckets[row.name := Bucket(row.unit, row.amount)])
    else
      var b := acc.buckets[row.name];
      acc.(buckets := acc.buckets[row.name := Bucket(b.unit, b.amount + row.amount)])
  }

  /** `buying_list` after the loops have seen `rows`. */
  function Collect(rows: seq<Row>): Acc {
    if |rows| == 0 then EmptyAcc
    else Step(Collect(rows[..|rows| - 1]), rows[|rows| - 1])
  }

  /** The keys of `acc` are the names seen, listed once each in `order`. */
  ghost predicate KeysMatch(acc: Acc, rows: seq<Row>) {
    && acc.buckets.Keys == Names(rows)
    && NoDuplicates(acc.order)
    && (forall n :: n in acc.order <==> n in acc.buckets)
  }

  /** Each bucket holds its name's total. */
  ghost predicate AmountsMatch(acc: Acc, rows: seq<Row>) {
    forall n | n in acc.buckets && n in Names(rows) :: acc.buckets[n].amount == Total(rows, n)
  }

  /** Each bucket holds the unit of its name's first row. */
  ghost predicate UnitsMatch(acc: Acc, rows: seq<Row>) {
    forall n | n in acc.buckets && n in Names(rows) :: acc.buckets[n].unit == rows[FirstIndex(rows, n)].unit
  }

  /** Keys are listed in order of first encounter. */
  ghost predicate OrderMatches(acc: Acc, rows: seq<Row>) {
    forall i, j | 0 <= i < j < |acc.order| && acc.order[i] in Names(rows) && acc.order[j] in Names(rows) ::
      FirstIndex(rows, acc.order[i]) < FirstIndex(rows, acc.order[j])
  }

  /** What `buying_list` holds after seeing `rows`: one bucket per distinct
      name, keys in first-encounter order, each bucket the sum of that name's
      amounts and the unit of that name's first row. */
  ghost predicate Describes(acc: Acc, rows: seq<Row>) {
    KeysMatch(acc, rows) && AmountsMatch(acc, rows) && UnitsMatch(acc, rows) && OrderMatches(acc, rows)
  }

  lemma {:induction false} TotalAbsent(rows: seq<Row>, n: string)
    requires n !in Names(rows)
    ensures Total(rows, n) == 0
  {
    if |rows| > 0 {
      TotalAbsent(rows[..|rows| - 1], n);
    }
  }

  lemma StepKeys(acc: Acc, rows: seq<Row>, x: Row)
    requires KeysMatch(acc, rows)
    ensures KeysMatch(Step(acc, x), rows + [x])
  {
    NamesSnoc(rows, x);
  }

  lemma StepAmounts(acc: Acc, rows: seq<Row>, x: Row)
    requires KeysMatch(acc, rows) && AmountsMatch(acc, rows)
    ensures AmountsMatch(Step(acc, x), rows + [x])
  {
    NamesSnoc(rows, x);
    if x.name !in acc.buckets {
      TotalAbsent(rows, x.name);
    }
  }

  lemma StepUnits(acc: Acc, rows: seq<Row>, x: Row)
    requires KeysMatch(acc, rows) && UnitsMatch(acc, rows)
    ensures UnitsMatch(Step(acc, x), rows + [x])
  {
    NamesSnoc(rows, x);
    var s := rows + [x];
    forall n | n in Names(rows) ensures s[FirstIndex(s, n)] == rows[FirstIndex(rows, n)] { }
  }

  lemma StepOrder(acc: Acc, rows: seq<Row>, x: Row)
    requires KeysMatch(acc, rows) && OrderMatches(acc, rows)
    ensures OrderMatches(Step(acc, x), rows + [x])
  {
    NamesSnoc(rows, x);
    var s := rows + [x];
    var a := Step(acc, x);
    if x.name !in acc.buckets {
      forall i, j | 0 <= i < j < |a.order| && a.order[i] in Names(s) && a.order[j] in Names(s)
        ensures FirstIndex(s, a.order[i]) < FirstIndex(s, a.order[j])
      {
        assert a.order[i] == acc.order[i];
        assert a.order[i] in acc.buckets;
        if j < |acc.order| { assert a.order[j] == acc.order[j]; }
      }
    }
  }

  lemma StepDescribes(acc: Acc, rows: seq<Row>, x: Row)
    requires Describes(acc, rows)
    ensures Describes(Step(acc, x), rows + [x])
  {
    StepKeys(acc, rows, x);
    StepAmounts(acc, rows, x);
    StepUnits(acc, rows, x);
    StepOrder(acc, rows, x);
  }

  lemma {:induction false} CollectDescribes(rows: seq<Row>)
    ensures Describes(Collect(rows), rows)
  {
    if |rows| > 0 {
      var p := rows[..|rows| - 1];
      CollectDescribes(p);
      assert rows == p + [rows[|rows| - 1]];
      StepDescribes(Collect(p), p, rows[|rows| - 1]);
    }
  }

  /** The second loop of the view: one line per key of `buying_list`, in
      insertion order. */
  function Emit(acc: Acc): seq<Line>
    requires forall n | n in acc.order :: n in acc.buckets
  {
    seq(|acc.order|, i requires 0 <= i < |acc.order| =>
      Row(acc.order[i], acc.buckets[acc.order[i]].amount, acc.buckets[acc.order[i]].unit))
  }

  /** The aggregated shopping list of a sequence of rows. */
  function Aggregate(rows: seq<Row>): (lines: seq<Line>)
    ensures |rows| == 0 ==> lines == []
    ensures forall i, j | 0 <= i < j < |lines| :: lines[i].name != lines[j].name
    ensures forall i | 0 <= i < |lines| :: lines[i].name in Names(rows)
    ensures forall n | n in Names(rows) :: exists i | 0 <= i < |lines| :: lines[i].name == n
    ensures forall i | 0 <= i < |lines| :: lines[i].amount == Total(rows, lines[i].name)
    ensures forall i | 0 <= i < |lines| :: lines[i].unit == rows[FirstIndex(rows, lines[i].name)].unit
    ensures forall i, j | 0 <= i < j < |lines| ::
              FirstIndex(rows, lines[i].name) < FirstIndex(rows, lines[j].name)
  {
    CollectDescribes(rows);
    EmitKeys(Collect(rows), rows);
    EmitValues(Collect(rows), rows);
    Emit(Collect(rows))
  }

  lemma EmitKeys(acc: Acc, rows: seq<Row>)
    requires KeysMatch(acc, rows)
    ensures var lines := Emit(acc);
      && (forall i, j | 0 <= i < j < |lines| :: lines[i].name != lines[j].name)
      && (forall i | 0 <= i < |lines| :: lines[i].name in Names(rows))
      && (forall n | n in Names(rows) :: exists i | 0 <= i < |lines| :: lines[i].name == n)
  {
    var lines := Emit(acc);
    forall n | n in Names(rows) ensures exists i | 0 <= i < |lines| :: lines[i].name == n {
      var i :| 0 <= i < |acc.order| && acc.order[i] == n;
      assert lines[i].name == n;
    }
  }

  lemma EmitValues(acc: Acc, rows: seq<Row>)
    requires Describes(acc, rows)
    ensures var lines := Emit(acc);
      && (forall i | 0 <= i < |lines| :: lines[i].name in Names(rows))
      && (forall i | 0 <= i < |lines| :: lines[i].amount == Total(rows, lines[i].name))
      && (forall i | 0 <= i < |lines| :: lines[i].unit == rows[FirstIndex(rows, lines[i].name)].unit)
      && (forall i, j | 0 <= i < j < |lines| ::
            FirstIndex(rows, lines[i].name) < FirstIndex(rows, lines[j].name))
  {
  }

  // ---------------------------------------------------------------------------
  // Rendering.

  /** f'{name} - {amount} {unit} \n'. The line reads back: it starts with
      the name and " - ", ends with a space, the unit and " \n", and what
      lies between is a decimal numeral whose value is the amount. */
  function RenderLine(l: Line): (r: string)
    ensures |r| >= |l.name| + |l.unit| + 7
    ensures r[..|l.name| + 3] == l.name + " - "
    ensures r[|r| - |l.unit| - 3..] == " " + l.unit + " \n"
    ensures AllDigits(r[|l.name| + 3..|r| - |l.unit| - 3])
    ensures ParseDecimal(r[|l.name| + 3..|r| - |l.unit| - 3]) == l.amount
    ensures r[|l.name| + 3..|r| - |l.unit| - 3] == NatToString(l.amount)
  {
    var num := NatToString(l.amount);
    var r := l.name + " - " + num + " " + l.unit + " \n";
    ParseNatToString(l.amount);
    assert r[|l.name| + 3..|r| - |l.unit| - 3] == num;
    r
  }

  function Render(lines: seq<Line>): (r: seq<string>)
    ensures |r| == |lines|
    ensures forall i | 0 <= i < |lines| :: r[i] == RenderLine(lines[i])
  {
    seq(|lines|, i requires 0 <= i < |lines| => RenderLine(lines[i]))
  }

  /** The response body: HttpResponse joins the list of lines. */
  function Concat(parts: seq<string>): string {
    if |parts| == 0 then "" else Concat(parts[..|parts| - 1]) + parts[|parts| - 1]
  }

  /** A rendered line determines its amount: lines for the same name and unit
      but different totals differ. */
  lemma RenderLineInjective(name: string, unit: string, a: nat, b: nat)
    requires RenderLine(Row(name, a, unit)) == RenderLine(Row(name, b, unit))
    ensures a == b
  {
    var sa := NatToString(a);
    var sb := NatToString(b);
    var la := RenderLine(Row(name, a, unit));
    var lb := RenderLine(Row(name, b, unit));
    var k := |name| + 3;
    assert |sa| == |sb|;
    assert la[k..k + |sa|] == sa;
    assert lb[k..k + |sb|] == sb;
    NatToStringInjective(a, b);
  }

  // ---------------------------------------------------------------------------
  // The rows the view walks.

  /** Every RecipeIngredient row refers to an existing ingredient. */
  ghost predicate IngredientsResolve(db: Db) {
    forall x | x in db.recipeIngredients :: x.ingredient in IngredientIds(db)
  }

  /** The recipes of the cart rows of `user` among `items`, in row order. */
  function CartTargets(items: seq<Pair>, user: UserId): (r: seq<RecipeId>)
    ensures forall rid :: rid in r <==> Pair(user, rid) in items
  {
    if |items| == 0 then []
    else
      var p := items[..|items| - 1];
      var last := items[|items| - 1];
      assert items == p + [last];
      CartTargets(p, user) + (if last.user == user then [last.target] else [])
  }

  /** `request.user.shopping_cart.all()`, as the recipes it names. */
  function CartRecipes(db: Db, user: UserId): (r: seq<RecipeId>)
    ensures forall rid :: rid in r <==> Pair(user, rid) in db.carts
  {
    CartTargets(db.carts, user)
  }

  lemma {:induction false} NoCartTargets(items: seq<Pair>, user: UserId)
    requires forall p | p in items :: p.user != user
    ensures CartTargets(items, user) == []
  {
    if |items| > 0 {
      NoCartTargets(items[..|items| - 1], user);
    }
  }

  /** The row as the loop body reads it: amount, ingredient.name,
      ingredient.measurement_unit. */
  function JoinRow(db: Db, x: RecipeIngredient): Row
    requires x.ingredient in IngredientIds(db)
  {
    var ing := FindIngredient(db, x.ingredient).value;
    Row(ing.name, x.amount, ing.unit)
  }

  function JoinRows(db: Db, xs: seq<RecipeIngredient>): (r: seq<Row>)
    requires forall x | x in xs :: x.ingredient in IngredientIds(db)
    ensures |r| == |xs|
    ensures forall i | 0 <= i < |xs| :: r[i] == JoinRow(db, xs[i])
  {
    if |xs| == 0 then [] else JoinRows(db, xs[..|xs| - 1]) + [JoinRow(db, xs[|xs| - 1])]
  }

  /** All rows of the given recipes, recipe by recipe. */
  function RowsFor(db: Db, rids: seq<RecipeId>): seq<Row>
    requires IngredientsResolve(db)
  {
    if |rids| == 0 then []
    else RowsFor(db, rids[..|rids| - 1]) + JoinRows(db, IngredientRowsOf(db, rids[|rids| - 1]))
  }

  /** Every row the view walks for `user`, in walking order. */
  function CartRows(db: Db, user: UserId): seq<Row>
    requires IngredientsResolve(db)
  {
    RowsFor(db, CartRecipes(db, user))
  }

  /** Membership in `Names`, as an existential over the rows. */
  lemma {:induction false} NamesMeaning(rows: seq<Row>, n: string)
    ensures n in Names(rows) <==> exists i | 0 <= i < |rows| :: rows[i].name == n
  {
    if |rows| > 0 {
      var p := rows[..|rows| - 1];
      NamesMeaning(p, n);
      if n in Names(p) {
        var i :| 0 <= i < |p| && p[i].name == n;
        assert rows[i] == p[i];
      }
    }
  }

  lemma {:induction false} NamesAppend(a: seq<Row>, b: seq<Row>)
    ensures Names(a + b) == Names(a) + Names(b)
  {
    if |b| > 0 {
      var p := b[..|b| - 1];
      NamesAppend(a, p);
      assert a + b == (a + p) + [b[|b| - 1]];
      NamesSnoc(a + p, b[|b| - 1]);
    } else {
      assert a + b == a;
    }
  }

  /** The names of joined rows are the names of their ingredients. */
  lemma JoinNames(db: Db, xs: seq<RecipeIngredient>, n: string)
    requires forall x | x in xs :: x.ingredient in IngredientIds(db)
    ensures n in Names(JoinRows(db, xs)) <==> exists x :: x in xs && JoinRow(db, x).name == n
  {
    var rows := JoinRows(db, xs);
    NamesMeaning(rows, n);
    if exists x :: x in xs && JoinRow(db, x).name == n {
      var x :| x in xs && JoinRow(db, x).name == n;
      var k :| 0 <= k < |xs| && xs[k] == x;
      assert rows[k].name == n;
    }
  }

  /** The names contributed by one recipe. */
  lemma RecipeNames(db: Db, rid: RecipeId, n: string)
    requires IngredientsResolve(db)
    ensures n in Names(JoinRows(db, IngredientRowsOf(db, rid))) <==>
              exists x :: x in db.recipeIngredients && x.recipe == rid && JoinRow(db, x).name == n
  {
    JoinNames(db, IngredientRowsOf(db, rid), n);
  }

  lemma {:induction false} RowsForNames(db: Db, rids: seq<RecipeId>, n: string)
    requires IngredientsResolve(db)
    ensures n in Names(RowsFor(db, rids)) <==>
              exists x :: x in db.recipeIngredients && x.recipe in rids && JoinRow(db, x).name == n
  {
    if |rids| > 0 {
      var p := rids[..|rids| - 1];
      var last := rids[|rids| - 1];
      assert rids == p + [last];
      RowsForNames(db, p, n);
      RecipeNames(db, last, n);
      NamesAppend(RowsFor(db, p), JoinRows(db, IngredientRowsOf(db, last)));
    }
  }

  /** A name is listed exactly when some recipe in the user's cart has a
      RecipeIngredient row whose ingredient carries that name. */
  lemma CartNames(db: Db, user: UserId, n: string)
    requires IngredientsResolve(db)
    ensures n in Names(CartRows(db, user)) <==>
              exists x :: x in db.recipeIngredients && Pair(user, x.recipe) in db.carts && JoinRow(db, x).name == n
  {
    RowsForNames(db, CartRecipes(db, user), n);
  }

  // ---------------------------------------------------------------------------
  // The view.

  /** DownloadShoppingCart.get: the lines of the downloaded file. */
  method DownloadShoppingCart(db: Db, user: UserId) returns (wishlist: seq<string>)
    requires IngredientsResolve(db)
    ensures wishlist == Render(Aggregate(CartRows(db, user)))
  {
    var buyingList := BuildBuyingList(db, user);
    CollectDescribes(CartRows(db, user));
    wishlist := WriteWishlist(buyingList);
  }

  /** The view's outer loop: `buying_list` filled from every cart recipe. */
  method BuildBuyingList(db: Db, user: UserId) returns (buyingList: Acc)
    requires IngredientsResolve(db)
    ensures buyingList == Collect(CartRows(db, user))
  {
    var shoppingCart := CartRecipes(db, user);
    buyingList := EmptyAcc;
    var i := 0;
    while i < |shoppingCart|
      invariant 0 <= i <= |shoppingCart|
      invariant buyingList == Collect(RowsFor(db, shoppingCart[..i]))
    {
      var ingredients := IngredientRowsOf(db, shoppingCart[i]);
      buyingList := AddRecipeRows(db, RowsFor(db, shoppingCart[..i]), buyingList, ingredients);
      RowsForNext(db, shoppingCart, i);
      i := i + 1;
    }
    assert shoppingCart[..i] == shoppingCart;
  }

  /** The view's inner loop over one recipe's RecipeIngredient rows: a new
      name is inserted with its unit and amount, a known name has its amount
      increased and keeps its unit. */
  method AddRecipeRows(db: Db, ghost before: seq<Row>, acc: Acc, ingredients: seq<RecipeIngredient>)
    returns (buyingList: Acc)
    requires forall x | x in ingredients :: x.ingredient in IngredientIds(db)
    requires acc == Collect(before)
    ensures buyingList == Collect(before + JoinRows(db, ingredients))
  {
    buyingList := acc;
    ghost var seen := before;
    var j := 0;
    assert ingredients[..0] == [];
    while j < |ingredients|
      invariant 0 <= j <= |ingredients|
      invariant seen == before + JoinRows(db, ingredients[..j])
      invariant buyingList == Collect(seen)
    {
      assert ingredients[j] in ingredients;
      var amount := ingredients[j].amount;
      var ingredient := FindIngredient(db, ingredients[j].ingredient).value;
      var name := ingredient.name;
      var measurementUnit := ingredient.unit;
      ghost var row := Row(name, amount, measurementUnit);
      buyingList := AddToBuyingList(buyingList, name, amount, measurementUnit);
      CollectSnoc(seen, row);
      JoinRowsNext(db, ingredients, j);
      seen := seen + [row];
      j := j + 1;
    }
    assert ingredients[..j] == ingredients;
  }

  /** The body of the inner loop: a name not yet in `buying_list` is inserted
      with this row's unit and amount; a known name keeps its unit and gains
      the amount. */
  method AddToBuyingList(buyingList: Acc, name: string, amount: nat, measurementUnit: string)
    returns (next: Acc)
    ensures next == Step(buyingList, Row(name, amount, measurementUnit))
  {
    if name !in buyingList.buckets {
      next := Acc(buyingList.order + [name], buyingList.buckets[name := Bucket(measurementUnit, amount)]);
    } else {
      var b := buyingList.buckets[name];
      next := buyingList.(buckets := buyingList.buckets[name := Bucket(b.unit, b.amount + amount)]);
    }
  }

  /** The view's last loop: one formatted line per key, in key order. */
  method WriteWishlist(buyingList: Acc) returns (wishlist: seq<string>)
    requires forall n | n in buyingList.order :: n in buyingList.buckets
    ensures wishlist == Render(Emit(buyingList))
  {
    wishlist := [];
    var k := 0;
    while k < |buyingList.order|
      invariant 0 <= k <= |buyingList.order|
      invariant wishlist == Render(Emit(buyingList)[..k])
    {
      var item := buyingList.order[k];
      wishlist := wishlist + [item + " - " + NatToString(buyingList.buckets[item].amount) + " "
                              + buyingList.buckets[item].unit + " \n"];
      RenderNext(Emit(buyingList), k);
      k := k + 1;
    }
    assert Emit(buyingList)[..k] == Emit(buyingList);
  }

  /** One more row is one more Step of the fold. */
  lemma CollectSnoc(seen: seq<Row>, row: Row)
    ensures Collect(seen + [row]) == Step(Collect(seen), row)
  {
    assert (seen + [row])[..|seen|] == seen;
  }

  /** One more RecipeIngredient row of a recipe is one more joined row. */
  lemma JoinRowsNext(db: Db, xs: seq<RecipeIngredient>, j: nat)
    requires forall x | x in xs :: x.ingredient in IngredientIds(db)
    requires j < |xs|
    ensures JoinRows(db, xs[..j + 1]) == JoinRows(db, xs[..j]) + [JoinRow(db, xs[j])]
  {
    assert xs[..j + 1][..j] == xs[..j];
  }

  /** One more cart recipe appends that recipe's rows. */
  lemma RowsForNext(db: Db, rids: seq<RecipeId>, i: nat)
    requires IngredientsResolve(db)
    requires i < |rids|
    ensures RowsFor(db, rids[..i + 1]) == RowsFor(db, rids[..i]) + JoinRows(db, IngredientRowsOf(db, rids[i]))
  {
    assert rids[..i + 1][..i] == rids[..i];
  }

  lemma RenderNext(lines: seq<Line>, k: nat)
    requires k < |lines|
    ensures Render(lines[..k + 1]) == Render(lines[..k]) + [RenderLine(lines[k])]
  {
  }

  /** An empty cart downloads an empty file. */
  lemma EmptyCartEmptyFile(db: Db, user: UserId)
    requires IngredientsResolve(db)
    requires forall p | p in db.carts :: p.user != user
    ensures Render(Aggregate(CartRows(db, user))) == []
    ensures Concat(Render(Aggregate(CartRows(db, user)))) == ""
  {
    NoCartTargets(db.carts, user);
  }

  /** Two recipes using 5 g and 3 g of Salt give the single line "Salt - 8 g". */
  lemma SaltExample()
    ensures Aggregate([Row("Salt", 5, "g"), Row("Salt", 3, "g")]) == [Row("Salt", 8, "g")]
    ensures RenderLine(Row("Salt", 8, "g")) == "Salt - 8 g \n"
  {
    var rows := [Row("Salt", 5, "g"), Row("Salt", 3, "g")];
    assert rows[..1] == [Row("Salt", 5, "g")];
    assert [Row("Salt", 5, "g")][..0] == [];
  }

  /** Grouping is by name: two distinct ingredients both called "Salt", one in
      grams and one in kilograms, merge into one line that keeps the first
      unit and adds the amounts regardless of unit. */
  lemma SameNameDifferentUnits()
    ensures Aggregate([Row("Salt", 5, "g"), Row("Salt", 1, "kg")]) == [Row("Salt", 6, "g")]
  {
    var rows := [Row("Salt", 5, "g"), Row("Salt", 1, "kg")];
    assert rows[..1] == [Row("Salt", 5, "g")];
    assert [Row("Salt", 5, "g")][..0] == [];
  }
}

=== FILE: text.dfy ===
/** The two pieces of Python string behaviour the core relies on:
    `str.strip()` with no argument, and `str(n)` / f-string rendering of a
    non-negative int. */
module Text {

  /** Python's `str.isspace()` characters, which `str.strip()` removes:
      U+0009..U+000D, U+001C..U+001F, space, U+0085, U+00A0, U+1680,
      U+2000..U+200A, U+2028, U+2029, U+202F, U+205F and U+3000. */
  predicate IsSpace(c: char) {
    || ('\U{9}' <= c <= '\U{D}')
    || ('\U{1C}' <= c <= '\U{20}')
    || c == '\U{85}' || c == '\U{A0}' || c == '\U{1680}'
    || ('\U{2000}' <= c <= '\U{200A}')
    || c == '\U{2028}' || c == '\U{2029}' || c == '\U{202F}' || c == '\U{205F}'
    || c == '\U{3000}'
  }

  /** Every character of `s` at an index in [lo, hi) is whitespace. */
  ghost predicate SpaceBetween(s: string, lo: int, hi: int) {
    forall k | lo <= k < hi && 0 <= k < |s| :: IsSpace(s[k])
  }

  ghost predicate AllSpace(s: string) {
    SpaceBetween(s, 0, |s|)
  }

  /** Neither end of `r` is whitespace. */
  predicate Trimmed(r: string) {
    |r| == 0 || (!IsSpace(r[0]) && !IsSpace(r[|r| - 1]))
  }

  /** `r` is `s` with some whitespace removed from each end. */
  ghost predicate StripsTo(s: string, r: string) {
    exists i, j | 0 <= i <= j <= |s| :: s[i..j] == r && SpaceBetween(s, 0, i) && SpaceBetween(s, j, |s|)
  }

  /** Length of the run of whitespace at the start of `s`. */
  function LeadingSpaces(s: string): (k: nat)
    ensures k <= |s|
    ensures forall i | 0 <= i < k :: IsSpace(s[i])
    ensures k < |s| ==> !IsSpace(s[k])
  {
    if |s| == 0 || !IsSpace(s[0]) then 0 else 1 + LeadingSpaces(s[1..])
  }

  /** Index at which the run of whitespace at the end of `s` starts. */
  function TrailingStart(s: string): (k: nat)
    ensures k <= |s|
    ensures forall i | k <= i < |s| :: IsSpace(s[i])
    ensures k > 0 ==> !IsSpace(s[k - 1])
  {
    if |s| == 0 || !IsSpace(s[|s| - 1]) then |s| else TrailingStart(s[..|s| - 1])
  }

  /** Python's `s.strip()`. */
  function Strip(s: string): (r: string)
    ensures StripsTo(s, r)
    ensures Trimmed(r)
  {
    var a := LeadingSpaces(s);
    var t := s[a..];
    var b := TrailingStart(t);
    assert s[a..a + b] == t[..b];
    assert SpaceBetween(s, a + b, |s|) by {
      forall k | a + b <= k < |s| ensures IsSpace(s[k]) {
        assert s[k] == t[k - a];
      }
    }
    t[..b]
  }

  /** A non-empty trimmed slice between whitespace runs starts where the
      leading run ends and stops where the trailing run begins. */
  lemma StripWitnessBounds(s: string, i: int, j: int)
    requires 0 <= i < j <= |s|
    requires SpaceBetween(s, 0, i) && SpaceBetween(s, j, |s|)
    requires !IsSpace(s[i]) && !IsSpace(s[j - 1])
    ensures i == LeadingSpaces(s) && j == TrailingStart(s)
  {
    var a := LeadingSpaces(s);
    var b := TrailingStart(s);
  }

  /** An empty slice between whitespace runs means all of `s` is whitespace. */
  lemma StripWitnessEmpty(s: string, i: int)
    requires 0 <= i <= |s|
    requires SpaceBetween(s, 0, i) && SpaceBetween(s, i, |s|)
    ensures LeadingSpaces(s) == |s|
  {
    var a := LeadingSpaces(s);
  }

  /** The slice between the two whitespace runs, when `s` is not all
      whitespace. */
  function Core(s: string): string {
    var a := LeadingSpaces(s);
    if a == |s| then [] else if a <= TrailingStart(s) then s[a..TrailingStart(s)] else []
  }

  /** Any trimmed slice between whitespace runs is the core. */
  lemma WitnessIsCore(s: string, r: string, i: int, j: int)
    requires 0 <= i <= j <= |s| && s[i..j] == r && Trimmed(r)
    requires SpaceBetween(s, 0, i) && SpaceBetween(s, j, |s|)
    ensures r == Core(s)
  {
    if i == j {
      StripWitnessEmpty(s, i);
    } else {
      assert s[i] == r[0] && s[j - 1] == r[|r| - 1];
      StripWitnessBounds(s, i, j);
    }
  }

  /** Stripping has exactly one possible outcome: the trimmed slice. */
  lemma StripUnique(s: string, r1: string, r2: string)
    requires StripsTo(s, r1) && Trimmed(r1)
    requires StripsTo(s, r2) && Trimmed(r2)
    ensures r1 == r2
  {
    var i1, j1 :| 0 <= i1 <= j1 <= |s| && s[i1..j1] == r1 && SpaceBetween(s, 0, i1) && SpaceBetween(s, j1, |s|);
    var i2, j2 :| 0 <= i2 <= j2 <= |s| && s[i2..j2] == r2 && SpaceBetween(s, 0, i2) && SpaceBetween(s, j2, |s|);
    WitnessIsCore(s, r1, i1, j1);
    WitnessIsCore(s, r2, i2, j2);
  }

  /** Stripping twice is stripping once. */
  lemma StripIdempotent(s: string)
    ensures Strip(Strip(s)) == Strip(s)
  {
    var r := Strip(s);
    assert r[0..|r|] == r;
    assert StripsTo(r, r);
    StripUnique(r, Strip(r), r);
  }

  /** A string that is already trimmed is returned unchanged. */
  lemma StripTrimmed(s: string)
    requires Trimmed(s)
    ensures Strip(s) == s
  {
    assert s[0..|s|] == s;
    assert StripsTo(s, s);
    StripUnique(s, Strip(s), s);
  }

  /** A string made only of whitespace strips to the empty string. */
  lemma StripAllSpace(s: string)
    requires AllSpace(s)
    ensures Strip(s) == ""
  {
    assert s[0..0] == [];
    assert StripsTo(s, "");
    StripUnique(s, Strip(s), "");
  }

  // ---------------------------------------------------------------------------
  // Decimal rendering of non-negative integers.

  predicate IsDigit(c: char) {
    '0' <= c <= '9'
  }

  predicate AllDigits(s: string) {
    forall i | 0 <= i < |s| :: IsDigit(s[i])
  }

  function DigitChar(d: nat): (c: char)
    requires d < 10
    ensures IsDigit(c) && c as int - '0' as int == d
  {
    "0123456789"[d]
  }

  /** `str(n)` for `n >= 0`: the shortest decimal numeral, without sign or
      leading zeros. */
  function NatToString(n: nat): (r: string)
    ensures |r| >= 1 && AllDigits(r)
    ensures r[0] == '0' ==> n == 0
  {
    if n < 10 then [DigitChar(n)] else NatToString(n / 10) + [DigitChar(n % 10)]
  }

  /** The value of a decimal numeral. */
  function ParseDecimal(s: string): nat
    requires AllDigits(s)
  {
    if |s| == 0 then 0
    else 10 * ParseDecimal(s[..|s| - 1]) + (s[|s| - 1] as int - '0' as int)
  }

  /** Rendering a number and reading it back yields the number. */
  lemma {:induction false} ParseNatToString(n: nat)
    ensures ParseDecimal(NatToString(n)) == n
  {
    if n >= 10 {
      var p := NatToString(n / 10);
      var r := NatToString(n);
      assert r[..|r| - 1] == p;
      ParseNatToString(n / 10);
    }
  }

  /** Distinct numbers render differently. */
  lemma NatToStringInjective(a: nat, b: nat)
    requires NatToString(a) == NatToString(b)
    ensures a == b
  {
    ParseNatToString(a);
    ParseNatToString(b);
  }
}

=== FILE: toggles.dfy ===
/** The pair-relationship toggles: adding a Favorite, ShoppingCart or Follow
    row (the serializers' `validate` followed by `save()`, reached through the
    views' GET handlers) and removing one (the views' DELETE handlers), plus
    the subscription listing. Errors are existence-based: adding an existing
    pair and removing an absent one both fail. */
module Toggles {
  import opened Results
  import opened Seqs
  import opened Schema

  /** The two (user, recipe) tables that share one serializer. */
  datatype RecipeList = Favorites | Cart

  function Rows(db: Db, list: RecipeList): seq<Pair> {
    match list
    case Favorites => db.favorites
    case Cart => db.carts
  }

  function WithRows(db: Db, list: RecipeList, rows: seq<Pair>): (d: Db)
    ensures Rows(d, list) == rows
  {
    match list
    case Favorites => db.(favorites := rows)
    case Cart => db.(carts := rows)
  }

  /** Adding (user, recipe) to favourites or to the cart: the primary-key
      fields reject an unknown user or recipe, `validate` rejects an existing
      pair, and `save()` appends the row. */
  function AddToList(db: Db, list: RecipeList, user: UserId, recipe: RecipeId): (r: Result<Db>)
    ensures r.Err? <==> user !in UserIds(db) || recipe !in RecipeIds(db) || Pair(user, recipe) in Rows(db, list)
    ensures r.Err? && (user !in UserIds(db) || recipe !in RecipeIds(db)) ==> r.error == UnknownReference
    ensures r.Err? && user in UserIds(db) && recipe in RecipeIds(db) ==> r.error == AlreadyAdded
    ensures r.Ok? ==> r.value == WithRows(db, list, Rows(db, list) + [Pair(user, recipe)])
  {
    if user !in UserIds(db) || recipe !in RecipeIds(db) then Err(UnknownReference)
    else if Pair(user, recipe) in Rows(db, list) then Err(AlreadyAdded)
    else Ok(WithRows(db, list, Rows(db, list) + [Pair(user, recipe)]))
  }

  /** Removing (user, recipe): a missing recipe is a 404, and so is a missing
      pair (the unhandled DoesNotExist of `objects.get`); otherwise the row is
      deleted and every other row stays, in order. */
  function RemoveFromList(db: Db, list: RecipeList, user: UserId, recipe: RecipeId): (r: Result<Db>)
    ensures r.Err? <==> recipe !in RecipeIds(db) || Pair(user, recipe) !in Rows(db, list)
    ensures r.Err? ==> r.error == NotFound
    ensures r.Ok? ==> forall p :: p in Rows(r.value, list) <==> p in Rows(db, list) && p != Pair(user, recipe)
    ensures r.Ok? ==> r.value == WithRows(db, list, Rows(r.value, list))
  {
    if recipe !in RecipeIds(db) then Err(NotFound)
    else if Pair(user, recipe) !in Rows(db, list) then Err(NotFound)
    else Ok(WithRows(db, list, Filter(Rows(db, list), (p: Pair) => p != Pair(user, recipe))))
  }

  /** Adding a follow: the primary-key fields reject an unknown user or
      author; `validate` rejects following oneself and an existing
      subscription with one and the same error; `save()` appends the row. */
  function AddFollow(db: Db, user: UserId, author: UserId): (r: Result<Db>)
    ensures r.Err? <==> user !in UserIds(db) || author !in UserIds(db) || user == author || Pair(user, author) in db.follows
    ensures r.Err? && (user !in UserIds(db) || author !in UserIds(db)) ==> r.error == UnknownReference
    ensures r.Err? && user in UserIds(db) && author in UserIds(db) ==> r.error == SubscriptionExists
    ensures r.Ok? ==> r.value == db.(follows := db.follows + [Pair(user, author)])
  {
    if user !in UserIds(db) || author !in UserIds(db) then Err(UnknownReference)
    else if user == author || Pair(user, author) in db.follows then Err(SubscriptionExists)
    else Ok(db.(follows := db.follows + [Pair(user, author)]))
  }

  /** FollowViewSet.delete: 404 for a missing author or a missing pair;
      otherwise exactly that Follow row is deleted. */
  function RemoveFollow(db: Db, user: UserId, author: UserId): (r: Result<Db>)
    ensures r.Err? <==> author !in UserIds(db) || Pair(user, author) !in db.follows
    ensures r.Err? ==> r.error == NotFound
    ensures r.Ok? ==> forall p :: p in r.value.follows <==> p in db.follows && p != Pair(user, author)
    ensures r.Ok? ==> r.value == db.(follows := r.value.follows)
  {
    if author !in UserIds(db) then Err(NotFound)
    else if Pair(user, author) !in db.follows then Err(NotFound)
    else Ok(db.(follows := Filter(db.follows, (p: Pair) => p != Pair(user, author))))
  }

  /** ListFollowViewSet.get_queryset: `User.objects.filter(following__user=user)`,
      the users that `user` follows. */
  function Subscriptions(db: Db, user: UserId): (r: seq<User>)
    ensures forall u :: u in r <==> u in db.users && Pair(user, u.id) in db.follows
  {
    Filter(db.users, (u: User) => Pair(user, u.id) in db.follows)
  }

  // ---------------------------------------------------------------------------
  // Invariants.

  lemma AddToListWellformed(db: Db, list: RecipeList, user: UserId, recipe: RecipeId)
    requires Wellformed(db)
    requires AddToList(db, list, user, recipe).Ok?
    ensures Wellformed(AddToList(db, list, user, recipe).value)
  {
  }

  lemma RemoveFromListWellformed(db: Db, list: RecipeList, user: UserId, recipe: RecipeId)
    requires Wellformed(db)
    requires RemoveFromList(db, list, user, recipe).Ok?
    ensures Wellformed(RemoveFromList(db, list, user, recipe).value)
    ensures |Rows(RemoveFromList(db, list, user, recipe).value, list)| == |Rows(db, list)| - 1
  {
    var keep := (p: Pair) => p != Pair(user, recipe);
    FilterNoDuplicates(Rows(db, list), keep);
    FilterDropsOne(Rows(db, list), keep, Pair(user, recipe));
  }

  lemma AddFollowWellformed(db: Db, user: UserId, author: UserId)
    requires Wellformed(db)
    requires AddFollow(db, user, author).Ok?
    ensures Wellformed(AddFollow(db, user, author).value)
  {
  }

  lemma RemoveFollowWellformed(db: Db, user: UserId, author: UserId)
    requires Wellformed(db)
    requires RemoveFollow(db, user, author).Ok?
    ensures Wellformed(RemoveFollow(db, user, author).value)
    ensures |RemoveFollow(db, user, author).value.follows| == |db.follows| - 1
  {
    var keep := (p: Pair) => p != Pair(user, author);
    FilterNoDuplicates(db.follows, keep);
    FilterDropsOne(db.follows, keep, Pair(user, author));
  }

  /** No follow row ever pairs a user with themselves, as long as rows are
      only added through AddFollow. */
  ghost predicate NoSelfFollow(db: Db) {
    forall p | p in db.follows :: p.user != p.target
  }

  lemma FollowKeepsNoSelfFollow(db: Db, user: UserId, author: UserId)
    requires NoSelfFollow(db)
    ensures AddFollow(db, user, author).Ok? ==> NoSelfFollow(AddFollow(db, user, author).value)
    ensures RemoveFollow(db, user, author).Ok? ==> NoSelfFollow(RemoveFollow(db, user, author).value)
  {
  }

  // ---------------------------------------------------------------------------
  // Toggle round trips.

  /** Adding then removing the same pair restores the database exactly. */
  lemma AddThenRemove(db: Db, list: RecipeList, user: UserId, recipe: RecipeId)
    requires AddToList(db, list, user, recipe).Ok?
    ensures RemoveFromList(AddToList(db, list, user, recipe).value, list, user, recipe) == Ok(db)
  {
    var rows := Rows(db, list);
    var keep := (p: Pair) => p != Pair(user, recipe);
    FilterAppend(rows, Pair(user, recipe), keep);
    FilterKeepsAll(rows, keep);
    assert WithRows(db, list, rows) == db by { match list { case Favorites => case Cart => } }
  }

  /** The second of two identical adds fails. */
  lemma AddTwiceFails(db: Db, list: RecipeList, user: UserId, recipe: RecipeId)
    requires AddToList(db, list, user, recipe).Ok?
    ensures AddToList(AddToList(db, list, user, recipe).value, list, user, recipe) == Err(AlreadyAdded)
  {
    var d := AddToList(db, list, user, recipe).value;
    assert RecipeIds(d) == RecipeIds(db) && UserIds(d) == UserIds(db) by { match list { case Favorites => case Cart => } }
  }

  /** Removing an existing pair and adding it back succeeds, and restores the
      same set of rows. */
  lemma RemoveThenAdd(db: Db, list: RecipeList, user: UserId, recipe: RecipeId)
    requires user in UserIds(db)
    requires RemoveFromList(db, list, user, recipe).Ok?
    ensures AddToList(RemoveFromList(db, list, user, recipe).value, list, user, recipe).Ok?
    ensures forall p :: p in Rows(AddToList(RemoveFromList(db, list, user, recipe).value, list, user, recipe).value, list)
                        <==> p in Rows(db, list)
  {
    var d := RemoveFromList(db, list, user, recipe).value;
    assert RecipeIds(d) == RecipeIds(db) && UserIds(d) == UserIds(db) by { match list { case Favorites => case Cart => } }
  }

  /** Removing a pair that is absent fails. */
  lemma RemoveAbsentFails(db: Db, list: RecipeList, user: UserId, recipe: RecipeId)
    requires Pair(user, recipe) !in Rows(db, list)
    ensures RemoveFromList(db, list, user, recipe) == Err(NotFound)
  {
  }

  /** Following oneself is always rejected. */
  lemma SelfFollowRejected(db: Db, user: UserId)
    ensures AddFollow(db, user, user).Err?
  {
  }

  /** Following then unfollowing restores the database exactly. */
  lemma FollowThenUnfollow(db: Db, user: UserId, author: UserId)
    requires AddFollow(db, user, author).Ok?
    ensures RemoveFollow(AddFollow(db, user, author).value, user, author) == Ok(db)
  {
    var keep := (p: Pair) => p != Pair(user, author);
    FilterAppend(db.follows, Pair(user, author), keep);
    FilterKeepsAll(db.follows, keep);
  }

  /** Unfollowing then following again succeeds and restores the same set of
      subscriptions. */
  lemma UnfollowThenFollow(db: Db, user: UserId, author: UserId)
    requires user in UserIds(db)
    requires RemoveFollow(db, user, author).Ok?
    ensures AddFollow(RemoveFollow(db, user, author).value, user, author).Ok? <==> user != author
    ensures user != author ==>
              forall p :: p in AddFollow(RemoveFollow(db, user, author).value, user, author).value.follows
                          <==> p in db.follows
  {
  }

  /** The listing holds exactly the users the requester follows. */
  lemma SubscriptionsExact(db: Db, user: UserId, author: UserId)
    requires PairsValid(db)
    ensures (exists u :: u in Subscriptions(db, user) && u.id == author) <==> Pair(user, author) in db.follows
  {
    if Pair(user, author) in db.follows {
      var u :| u in db.users && u.id == author;
      assert u in Subscriptions(db, user);
    }
  }

  /** After a successful follow the author is listed; after a successful
      unfollow they are not. */
  lemma SubscriptionsTrackToggles(db: Db, user: UserId, author: UserId)
    requires Wellformed(db)
    ensures AddFollow(db, user, author).Ok? ==>
              exists u :: u in Subscriptions(AddFollow(db, user, author).value, user) && u.id == author
    ensures RemoveFollow(db, user, author).Ok? ==>
              forall u | u in Subscriptions(RemoveFollow(db, user, author).value, user) :: u.id != author
  {
    if AddFollow(db, user, author).Ok? {
      AddFollowWellformed(db, user, author);
      SubscriptionsExact(AddFollow(db, user, author).value, user, author);
    }
  }
}
